=== FILE: README.md ===
# Semantic Scholar scraper core, modelled in Dafny

`main.py` is a Playwright scraper. It pages through Semantic Scholar search
results, records every paper card and its authors, then visits every author
profile to read a citation count, and finally writes three CSV tables. The
browser work is plumbing; this project models the deterministic bookkeeping
inside it and proves what that bookkeeping guarantees.

- **Text** — the Python string operations the code relies on: `strip()`
  (with Python's `isspace` set), `rstrip('/')`, `split('/')[-1]`, `in`,
  `startswith`.
- **Hrefs** — accepting a `/paper/` or `/author/` href, making it absolute
  with the base URL, and deriving its id as the last segment after
  stripping trailing slashes.
- **Numbers** — the leftmost run of digits and commas with its commas
  dropped and parsed with `int()`; a comma-only run, or one of more than
  4300 digits (CPython's default `int()` digit limit), gives no count. The
  year is the leftmost `\b(19|20)\d{2}\b` token, found by a hand-written scan.
- **Fallback** — the "first selector that matched" rule used for titles,
  citation elements, card lists, author lists and next buttons. The paper
  link is different: it is the first selector result whose href contains
  `/paper/`, so a match without one does not stop the search.
- **Repository** — the collected state (papers, authors by id, links, the
  queue of profile URLs). Each card appends one paper and a link per
  accepted author. An author record is created and its URL queued only on
  first sighting.
- **Search** — the search-page loop. It stops on reaching the limit, a
  results timeout, no cards, no next button, a disabled next button, or the
  page ceiling. The browser is replaced by abstract inputs: what each
  selector found on each card and page.
- **Profiles** — the citation count a profile visit stores (Strategy 2,
  falling back to Strategy 3 only on 0, `None` when navigation fails) and
  the profile loop, both as written and corrected.
- **Export** — the pandas `drop_duplicates` that keeps the first row per key.
- **Scraper** — the three phases of `run` composed.

External inputs become parameters:
- the browser's answers are `Card`, `PageView` and `ProfileView` values, and
  pages are a function from page index to `PageView`;
- the MD5 title hash is a function `titleHash`;
- what each profile page offered is a function `profile` from URL to
  `ProfileView`, and the loop stores `ProfileCitation` of it;
- the order in which Python iterates the queue set is a sequence `order`.

Facts about `main.py` that shape the model:
- A link row holds only the paper id and the author id, not the author's
  position in the byline.
- An author's `citation_count` is `None` both before its profile is visited
  and after a visit that failed.
- Papers are appended without a duplicate check; duplicate ids are removed
  only at export.
- Nothing is retried: a search page or profile that fails is not visited
  again.
- A `KeyError` in the profile loop ends the run before anything is
  exported (see Findings).
- With no papers the three tables are still written, empty; only the
  summary after them fails, dividing by zero.

## Model

| member | source | states |
|---|---|---|
| Text.Strip | main.py:152 | `strip()` returns the slice left after cutting only whitespace from both ends, and that slice neither starts nor ends with whitespace |
| Text.RStripSlashes | main.py:179 | `rstrip('/')` keeps the longest prefix that does not end in a slash, and everything it cuts is a slash |
| Text.LastSegment | main.py:320 | `split('/')[-1]` is the suffix of the string after its last slash, or the whole string when it has none, and it contains no slash |
| Text.RStripIgnoresTrailingSlashes | main.py:179 | appending slashes to a string does not change its `rstrip('/')` |
| Text.RStripPrefix | main.py:179 | text put in front of a string that keeps a non-slash character is kept in front of its `rstrip('/')` |
| Text.LastSegmentPrefix | main.py:320 | the last segment depends only on the text after the last slash, so a base URL put in front of a string containing a slash does not change it |
| Hrefs.Absolute | main.py:172-175 | an href starting with `http` is kept, any other gets the base URL in front, and the result always starts with `http` |
| Hrefs.IdOfIsSplitOfStripped | main.py:179-180 | the index-based id derivation is exactly Python's `rstrip('/').split('/')[-1]` |
| Hrefs.IdOf | main.py:179-180 | the id of an href is the text between its last slash and its trailing slashes; `Hrefs.IdOfIsSplitOfStripped` states that this is `rstrip('/').split('/')[-1]` |
| Hrefs.AcceptedHrefId | main.py:171-180 | an accepted `/paper/` or `/author/` href has a non-empty id with no slash, and trailing slashes do not change it |
| Hrefs.IsPaperHref | main.py:171 | an href is taken as a paper link exactly when `/paper/` occurs in it; what that guarantees about its id is stated by `Hrefs.AcceptedHrefId` |
| Hrefs.IsAuthorHref | main.py:241 | an href is taken as an author link exactly when `/author/` occurs in it; what that guarantees about its id is stated by `Hrefs.AcceptedHrefId` |
| Hrefs.IdOfAbsolute | main.py:243-250 | the absolute URL has the same id as the href it came from |
| Hrefs.ProfileKeyAgreement | main.py:249-250 | for an author href, `split('/')[-1]` of the absolute URL is the map key exactly when the href does not end in a slash |
| Numbers.ParseDecimal | main.py:209 | `int()` succeeds exactly on a non-empty string of digits no longer than CPython's 4300-digit limit |
| Numbers.DropCommas | main.py:209 | `replace(',', '')` removes every comma and keeps every other character: one character is kept unless it is a comma, and the result is never longer than the input |
| Numbers.DropCommasAppend | main.py:209 | comma removal works character by character: for two texts one after the other it gives the two results one after the other, so the kept characters keep their order and their repeats |
| Numbers.LeftmostRun | main.py:206 | the digit/comma search finds nothing exactly when no character is a digit or comma; otherwise it captures the leftmost maximal run |
| Numbers.ParseCount | main.py:206-211 | the count of a text is the leftmost digit/comma run, commas dropped, read by `int()`; its meaning is stated by `Numbers.ParseCountSpec` and `Numbers.ParseCountOfRendered` |
| Numbers.ParseCountSpec | main.py:204-211 | a count is read exactly when the leftmost digit/comma run holds a digit and at most 4300 digits, and it is the value of that run with its commas dropped |
| Numbers.ParseCountOfRendered | main.py:206-209 | a number written in decimal with at most 4300 digits, surrounded by text with no digit or comma next to it, is read back as that number |
| Numbers.ParseDecimalOfDigits | main.py:209 | `int(str(n))` is `n` for every `n` with at most 4300 digits |
| Numbers.ParseCountExample | main.py:204-211 | the text "12,450" is read as 12450 |
| Numbers.CommaRunExample | main.py:208-211 | a run made only of commas raises `ValueError` inside `int()` and leaves the count unset |
| Numbers.YearOf | main.py:192-197 | there is no year exactly when the pattern matches nowhere; otherwise the year is the value of the leftmost match and lies in 1900-2099 |
| Numbers.YearValueBounds | main.py:195-197 | a four-digit token starting 19 or 20 has a value in 1900-2099 |
| Fallback.FirstNonEmpty | main.py:129-133 | the result is empty exactly when every selector found nothing; otherwise it is the first selector's non-empty result |
| Fallback.FirstSome | main.py:148-153 | the result is absent exactly when no selector matched; otherwise it is the first match |
| Fallback.FirstNonEmptyPrefers | main.py:231-234 | a selector that matches hides every later one |
| Fallback.FirstSomePrefers | main.py:280-283 | when earlier selectors miss, the first one that matches is used |
| Search.CardTitle | main.py:145-153 | the title is "Unknown Title" when no title selector matched, and otherwise the stripped text of the first one that did |
| Search.PaperHref | main.py:167-181 | the href used is the first selector result that contains `/paper/`; there is none exactly when no result qualifies |
| Search.ExtractPaper | main.py:143-220 | with a `/paper/` href the paper id is its non-empty, slash-free id and the URL is absolute; without one the id is the title hash and the URL "N/A"; the year is the leftmost year token of the publication-date text when that element exists and none otherwise, so it lies in 1900-2099; the count is the first citation element's parsed count |
| Search.ReadCard | main.py:143-266 | a card gives the paper row `ExtractPaper` builds and the sightings of the anchors of the first author selector that matched, each with a non-empty id that is its profile URL's id |
| Search.SightingOf | main.py:236-250 | an accepted author anchor gives its href's id, its stripped name and the absolute URL made from its href, which starts with `http` and has the same id |
| Search.Sightings | main.py:236-241 | a byline gives at most one sighting per anchor, each with a non-empty id that is its profile URL's id |
| Search.SightingsAppend | main.py:236-241 | the accepted anchors of two stretches of a byline are those of each, in order |
| Search.SightingsOfAccepted | main.py:236-250 | anchors that are all accepted give one sighting each, in byline order |
| Search.SightingsOfRejected | main.py:241 | anchors without an `/author/` href give no sighting |
| Search.PagePapers | main.py:139-141 | one page's card loop appends exactly `min(cards, limit - papers)` papers, those of the first cards, in order |
| Search.PageIngest | main.py:139-266 | one page's card loop reads every card and takes them in order while under the limit; its effect is stated by `Search.PagePapers` and `Search.PageIngestSound` |
| Search.PageIngestSound | main.py:139-266 | one page's card loop stays within the limit, only appends, and keeps the repository valid |
| Search.Clickable | main.py:286-290 | a next-page control is clicked when `is_enabled()` holds and its `disabled` attribute is absent or the empty string, which Python treats as false |
| Search.PageStep | main.py:98-307 | a pass that stops leaves the page counter at the page's index or one past it, and a pass that goes on leaves it at most 20; that the counter stays put exactly when the limit was already met is stated by `Search.PageStepStop` |
| Search.PageStepGo | main.py:98-307 | the loop moves to the next page only from a page whose results appeared and whose card selectors found at least one card, while under the limit, and past a page still under the limit only through a clickable next button |
| Search.PageStepStop | main.py:98-307 | a page that ends the loop records why; it processes no page exactly when the limit was already met |
| Search.CrawlFrom | main.py:98-307 | the loop processes at most 21 pages |
| Search.CrawlBounded | main.py:98-141 | the loop never stores more than `max(papers, limit)` papers, and it only appends to what it started with |
| Search.CrawlStops | main.py:98-137 | the loop processes no page exactly when the limit is met from the start; otherwise it stops on reaching the limit, on a results timeout, on a page with no cards, with no next button or with a disabled one, or after page 21 |
| Search.CrawlContinues | main.py:286-302 | every page before the last one had results, cards and a clickable next button |
| Search.CrawlKeepsValid | main.py:98-266 | the loop keeps the repository invariant |
| Search.ScrapeSearch | main.py:87-307 | the search phase processes at most 21 pages |
| Search.ScrapeSearchSound | main.py:87-307 | after the search phase at most `max(limit, 0)` papers are stored, at most 21 pages were processed, and the repository is valid |
| Repository.AddPaper | main.py:214-220 | the paper list grows by exactly the new paper and nothing else changes |
| Repository.AddAuthorLink | main.py:253-256 | a link is always appended and the papers are untouched |
| Repository.AddAuthorLinkAuthors | main.py:259-266 | a known author keeps its record and the queue is unchanged; a new author gets a record without a count and its URL is queued; no existing record changes |
| Repository.AddAuthorLinkKeepsValid | main.py:253-266 | linking a stored paper to an author whose id is its URL's id keeps the repository valid, and the queue changes exactly when the id is new |
| Repository.NewAuthorQueued | main.py:259-266 | a new author whose URL is keyed by its id grows the queue by exactly that URL, so there is still one queued URL per author |
| Repository.AddSightingsLinks | main.py:236-256 | a card's links follow the existing ones, one per accepted anchor in byline order, all naming the card's paper |
| Repository.AddSightings | main.py:236-256 | a card's authors leave the papers untouched and append one link per accepted anchor |
| Repository.AddSightingsAuthors | main.py:259-266 | no existing record or queued URL changes, and the author keys grow by exactly the sighted ids |
| Repository.FirstSightingWins | main.py:259-265 | an author new after a card carries the name and URL of its first anchor on that card |
| Repository.AddSightingsKeepsValid | main.py:236-266 | a card's authors keep the repository valid |
| Repository.AddCardGrows | main.py:214-266 | a card only appends, and every new link names the card's paper |
| Repository.AddCard | main.py:214-220 | a card appends exactly its own paper to the paper list |
| Repository.AddCardKeepsValid | main.py:214-266 | a card keeps the repository valid |
| Repository.AddCardsPapers | main.py:139-141 | cards are taken only while under the limit, so exactly `min(cards, limit - papers)` papers are appended, those of the first cards, in order |
| Repository.AddCards | main.py:139-141 | no card is taken once the limit is met, and at most one paper per card is appended |
| Repository.AddCardsGrows | main.py:139-266 | a page's cards only append |
| Repository.AddCardsKeepsValid | main.py:139-266 | a page's cards keep the repository valid |
| Profiles.Candidate | main.py:355-362 | a profile text's candidate is its parsed count when that lies in `[0, 1000000]`, and nothing otherwise |
| Profiles.MaxCandidate | main.py:352-361 | the result is at least the starting value, at most 1000000, at least every in-range candidate, and either the starting value or one of the candidates |
| Profiles.Strategy2 | main.py:341-363 | the result lies in `[0, 1000000]`, bounds every in-range candidate of every selector, and is the starting 0 or one of those candidates: the maximum of the in-range candidates |
| Profiles.Strategy3 | main.py:365-383 | the result is 0 when no pattern group parses; otherwise it is the value of the first group that parses |
| Profiles.ProfileCitation | main.py:334-397 | a visit stores `None` exactly when navigation fails; 0 when the stats section does not appear; the Strategy 2 result when that is not 0; otherwise the Strategy 3 result |
| Profiles.Strategy3OnlyAsFallback | main.py:366 | once Strategy 2 finds a positive in-range candidate, the page text patterns do not affect the stored count, which is at most 1000000 |
| Profiles.SetCitation | main.py:390 | the update changes the count of one author and nothing else |
| Profiles.VisitCountsOnly | main.py:316-397 | the profile loop changes only citation counts |
| Profiles.Visit | main.py:316-397 | the profile loop, whatever its key derivation, keeps the set of author keys |
| Profiles.VisitStrict | main.py:390-397 | a loop in which an unknown key is fatal can only abort with a key that is not an author |
| Profiles.VisitProfiles | main.py:316-397 | the corrected profile loop keeps the set of author keys |
| Profiles.VisitProfilesAsWritten | main.py:320-397 | the profile loop as written can only abort with a key that is not an author |
| Profiles.VisitSets | main.py:316-397 | when every queued URL belongs to the author stored under its key, every author with a queued URL ends with the count read from it, and the others keep theirs |
| Profiles.StrictAgrees | main.py:320-397 | when every key the loop derives is a known author, the aborting loop finishes and equals the lenient one |
| Profiles.StrictFails | main.py:390-397 | when every key the loop derives is a known author or one unknown key `bad`, and `bad` is derived from some queued URL, the loop as written aborts with `bad` |
| Profiles.StrictFailsFirst | main.py:320-397 | the loop as written aborts with the key of the first queued URL whose key is not a known author, whatever follows it |
| Profiles.VisitAllQueued | main.py:316-397 | visiting the queue of a valid repository gives every author the count read from its own profile page and changes nothing else |
| Profiles.SameButCountsKeeps | main.py:390-397 | changing only counts keeps the map keyed by id and its set of profile URLs |
| Profiles.AsWrittenAgrees | main.py:320 | without trailing slashes on the queued URLs the loop as written equals the corrected loop |
| Profiles.AsWrittenAborts | main.py:320-397 | a queued URL ending in a slash makes the loop as written abort with `KeyError('')` |
| Export.KeepFirst | main.py:415 | the kept rows have pairwise distinct keys, none of them already seen |
| Export.KeepFirstSubsequence | main.py:415 | rows are only dropped, never reordered or invented |
| Export.KeepFirstCovers | main.py:415 | every key of the input is the key of some kept row |
| Export.KeepFirstIsFirst | main.py:415 | every kept row is the first input row with its key |
| Export.KeepFirstOrder | main.py:415 | kept rows follow the order of their keys' first occurrences: wherever a later kept row's key occurs, an earlier kept row's key has occurred before |
| Export.KeepFirstIdempotent | main.py:415 | de-duplicating twice is de-duplicating once |
| Export.DedupPapers | main.py:415 | the kept paper rows have distinct ids, are no more than the stored rows, and are empty only when no paper was stored |
| Export.DedupLinks | main.py:426 | the kept link rows are distinct, are no more than the stored rows, and are empty only when no link was stored |
| Export.ExportTables | main.py:407-427 | the three tables are always written, with the authors unchanged; the paper table is empty exactly when no paper was stored, and neither the paper nor the link table is longer than what was stored |
| Export.ExportPapers | main.py:413-415 | one paper row per stored id, the first one stored, in the order in which the ids first occur in storage |
| Export.ExportLinks | main.py:425-426 | every distinct stored link exactly once, in the order in which the links first occur in storage |
| Export.ExportResolves | main.py:407-427 | in the exported tables of a valid repository every link row names an exported author and an exported paper |
| Scraper.Run | main.py:73-85 | when no browser call raises outside the caught timeouts, the corrected run (ids derived as at line 249) writes the tables; the paper table is empty exactly when the search phase stored no papers, and the author table has exactly the authors the search found |
| Scraper.RunAsWritten | main.py:73-85 | when no browser call raises outside the caught timeouts, the run as written ends before export only with a key that is not a known author; when it finishes, its paper table is empty exactly when no paper was stored |
| Scraper.Visited | main.py:79-80 | the profile phase leaves the papers, links and queue alone and keeps the author keys; the counts it sets are stated by `Scraper.VisitedValid` |
| Scraper.VisitedValid | main.py:79-80 | the profile phase keeps the repository valid and gives every author the count of its own profile page |
| Scraper.RunSound | main.py:73-85 | the run writes at most `max(limit, 0)` papers with distinct ids, every author with the count read from its own profile page, and link rows that all resolve |
| Scraper.RunAsWrittenAborts | main.py:79-85 | a queued profile URL ending in a slash makes the run as written abort before anything is exported |
| Scraper.RunAsWrittenAgrees | main.py:79-85 | without trailing slashes on the queued URLs the run as written finishes with the corrected run's tables |

## Left out

- Playwright (launching, navigation, selector waits, queries, `inner_text`, clicks, stealth) is replaced by abstract inputs: per-card selector results, per-page views and per-profile views.
- Scraper.Run: assumes no browser call raises outside the two caught timeouts. In `main.py` such an error leaves `run()` before `_export_data()` at line 84, and no table is written. The calls in question are `page.goto` at line 92, `wait_for_load_state` at line 294, `new_page` and `stealth_async` at lines 326-328, and the card loop's `inner_text`/`get_attribute` calls at lines 149-239. `Run` is also the corrected run: the profile loop derives ids with `IdOf`, not with the `split('/')[-1]` of line 320 (see Findings).
- Scraper.RunAsWritten: assumes the same, so its only way to end before export is the `KeyError` of lines 390-397; the browser errors listed for `Scraper.Run` would end it too.
- `asyncio` and the `random.uniform` delays have no effect on the data.
- Screenshots, HTML debug dumps and the CSV writes are I/O. Only the de-duplication before them is modelled.
- The summary statistics (lines 430-439) are printed output in floating point. With no papers their average divides by zero after the three tables are written; the model ends at the written tables.
- Numbers.ParseDecimal: follows CPython 3.11 and later (and the 3.7-3.10 security releases), where `int()` refuses more than 4300 digits; older interpreters convert any length.
- The MD5 fallback id is the parameter `titleHash`. Only its determinism is used.
- The regular-expression engine is left out. The digit/comma run and the year token are scanned by hand. Strategy 3's three patterns are abstract: the view gives each pattern's first group, if it matched.
- `\d` and `\w` are taken as ASCII. Python also accepts other Unicode digits there and in `int()`.
- Command-line parsing of the query and the limit is left out; the limit is an integer parameter.
- The order in which Python iterates the queue set is the abstract sequence `order`. Only its contents are constrained.
- The CSV row order of the author table is left out: authors are exported as a map.
- Profiles.ProfileCitation: a visit is modelled as failing at one of two points. `GotoFailed` is any exception outside the timeout handler, which stores `None`. `StatsMissing` is the timeout of the stats-section wait, which stores 0. A timeout raised partway through Strategy 2 or 3 keeps the partial maximum; this is not modelled.

## Findings

| source | as written | input that shows it | evidently intended | confidence | as-written member | corrected member |
|---|---|---|---|---|---|---|
| main.py:320 | the profile loop re-derives the author id with `auth_url.split('/')[-1]`, without the `rstrip('/')` used when the key was stored at line 249, and then indexes `self.authors` with it at lines 390 and 397 | an author anchor with href `/author/Jane-Doe/123/`: it is stored under key `123` with profile URL `https://www.semanticscholar.org/author/Jane-Doe/123/`, whose last segment is `""`; line 390 raises `KeyError('')`, the handler catches it and line 397 raises it again, which ends the run before export | derive the id the same way as at line 249 (strip trailing slashes first), so every queued author gets its count | not executed | Profiles.VisitProfilesAsWritten, Profiles.AsWrittenAborts, Scraper.RunAsWrittenAborts | Profiles.VisitProfiles, Profiles.VisitAllQueued, Scraper.RunSound |

=== FILE: export.dfy ===
/** The de-duplication `_export_data` applies before writing the CSV files
    (main.py lines 407-427): pandas `drop_duplicates`, which keeps the first
    row of every group of rows with the same key. */
module Export {
  import opened Repository

  /** The rows of `xs` whose key has not been seen before, in order; a key
      is seen once a row with it is kept or when it is in `seen` already. */
  function KeepFirst<T, K(==)>(xs: seq<T>, key: T -> K, seen: set<K>): (ys: seq<T>)
    ensures |ys| <= |xs|
    ensures forall i :: 0 <= i < |ys| ==> key(ys[i]) !in seen
    ensures forall i, j :: 0 <= i < j < |ys| ==> key(ys[i]) != key(ys[j])
    ensures xs != [] && key(xs[0]) !in seen ==> ys != [] && ys[0] == xs[0]
    decreases xs
  {
    if xs == [] then []
    else if key(xs[0]) in seen then KeepFirst(xs[1..], key, seen)
    else
      var rest := KeepFirst(xs[1..], key, seen + {key(xs[0])});
      [xs[0]] + rest
  }

  /** `ys` is `xs` with some rows left out and the others in their order. */
  predicate Subsequence<T(==)>(ys: seq<T>, xs: seq<T>)
    decreases |xs|
  {
    if ys == [] then true
    else if xs == [] then false
    else (ys[0] == xs[0] && Subsequence(ys[1..], xs[1..])) || Subsequence(ys, xs[1..])
  }

  lemma {:induction false} SubsequenceMembers<T>(ys: seq<T>, xs: seq<T>)
    requires Subsequence(ys, xs)
    ensures forall y :: y in ys ==> y in xs
    decreases |xs|
  {
    if ys != [] {
      if ys[0] == xs[0] && Subsequence(ys[1..], xs[1..]) {
        SubsequenceMembers(ys[1..], xs[1..]);
        forall y | y in ys ensures y in xs {
          if y != ys[0] {
            assert y in ys[1..];
            assert y in xs[1..];
          }
        }
      } else {
        SubsequenceMembers(ys, xs[1..]);
      }
    }
  }

  /** Rows are only dropped, never reordered or invented. */
  lemma {:induction false} KeepFirstSubsequence<T, K>(xs: seq<T>, key: T -> K, seen: set<K>)
    ensures Subsequence(KeepFirst(xs, key, seen), xs)
    decreases xs
  {
    if xs != [] {
      var ys := KeepFirst(xs, key, seen);
      if key(xs[0]) in seen {
        KeepFirstSubsequence(xs[1..], key, seen);
        SubsequenceSkip(ys, xs);
      } else {
        KeepFirstSubsequence(xs[1..], key, seen + {key(xs[0])});
        assert ys[0] == xs[0] && ys[1..] == KeepFirst(xs[1..], key, seen + {key(xs[0])});
      }
    }
  }

  lemma SubsequenceSkip<T>(ys: seq<T>, xs: seq<T>)
    requires xs != [] && Subsequence(ys, xs[1..])
    ensures Subsequence(ys, xs)
  {
  }

  /** Some kept row has key `k`. */
  ghost predicate KeptKey<T, K>(ys: seq<T>, key: T -> K, k: K) {
    exists j :: 0 <= j < |ys| && key(ys[j]) == k
  }

  /** No key is lost: every row's key is either seen already or the key of
      a kept row. */
  lemma {:induction false} KeepFirstCovers<T, K>(xs: seq<T>, key: T -> K, seen: set<K>)
    ensures forall i :: 0 <= i < |xs| ==> key(xs[i]) in seen || KeptKey(KeepFirst(xs, key, seen), key, key(xs[i]))
    decreases xs
  {
    if xs != [] {
      var ys := KeepFirst(xs, key, seen);
      var seen' := if key(xs[0]) in seen then seen else seen + {key(xs[0])};
      KeepFirstCovers(xs[1..], key, seen');
      var rest := KeepFirst(xs[1..], key, seen');
      assert ys == if key(xs[0]) in seen then rest else [xs[0]] + rest;
      forall i | 0 <= i < |xs| && key(xs[i]) !in seen
        ensures KeptKey(ys, key, key(xs[i]))
      {
        if i == 0 {
          assert key(ys[0]) == key(xs[i]);
        } else {
          assert xs[i] == xs[1..][i - 1];
          if key(xs[i]) in seen' {
            assert key(xs[i]) == key(xs[0]) && key(ys[0]) == key(xs[i]);
          } else {
            var j :| 0 <= j < |rest| && key(rest[j]) == key(xs[i]);
            if key(xs[0]) in seen {
              assert ys[j] == rest[j];
            } else {
              assert ys[j + 1] == rest[j];
            }
          }
        }
      }
    }
  }

  /** `y` is the first row of `xs` with its key. */
  ghost predicate FirstWithKey<T, K>(xs: seq<T>, key: T -> K, y: T) {
    exists j :: 0 <= j < |xs| && xs[j] == y && forall j' :: 0 <= j' < j ==> key(xs[j']) != key(y)
  }

  /** Every kept row is the first row of `xs` with its key. */
  lemma {:induction false} KeepFirstIsFirst<T, K>(xs: seq<T>, key: T -> K, seen: set<K>)
    ensures forall i :: 0 <= i < |KeepFirst(xs, key, seen)| ==> FirstWithKey(xs, key, KeepFirst(xs, key, seen)[i])
    decreases xs
  {
    if xs != [] {
      var ys := KeepFirst(xs, key, seen);
      var seen' := if key(xs[0]) in seen then seen else seen + {key(xs[0])};
      KeepFirstIsFirst(xs[1..], key, seen');
      var rest := KeepFirst(xs[1..], key, seen');
      var off := if key(xs[0]) in seen then 0 else 1;
      assert ys == if key(xs[0]) in seen then rest else [xs[0]] + rest;
      forall i | 0 <= i < |ys| ensures FirstWithKey(xs, key, ys[i]) {
        if off == 1 && i == 0 {
          assert xs[0] == ys[0];
        } else {
          assert ys[i] == rest[i - off];
          assert FirstWithKey(xs[1..], key, rest[i - off]);
          var j :| 0 <= j < |xs[1..]| && xs[1..][j] == rest[i - off]
            && forall j' :: 0 <= j' < j ==> key(xs[1..][j']) != key(rest[i - off]);
          assert key(ys[i]) !in seen';
          forall j' | 0 <= j' < j + 1 ensures key(xs[j']) != key(ys[i]) {
            if j' > 0 { assert xs[j'] == xs[1..][j' - 1]; }
          }
          assert xs[j + 1] == ys[i];
        }
      }
    }
  }

  /** Kept rows come in the order in which their keys first occur in `xs`:
      wherever the key of a later kept row occurs in `xs`, the key of an
      earlier kept row has occurred before it. */
  ghost predicate FirstOccurrenceOrder<T, K>(xs: seq<T>, key: T -> K, ys: seq<T>) {
    forall i, j, n :: 0 <= i < j < |ys| && 0 <= n < |xs| && key(xs[n]) == key(ys[j]) ==>
      exists m :: 0 <= m < n && key(xs[m]) == key(ys[i])
  }

  /** The kept rows are in first-occurrence order. */
  lemma {:induction false} KeepFirstOrder<T, K>(xs: seq<T>, key: T -> K, seen: set<K>)
    ensures FirstOccurrenceOrder(xs, key, KeepFirst(xs, key, seen))
    decreases xs
  {
    if xs != [] {
      var ys := KeepFirst(xs, key, seen);
      var seen' := if key(xs[0]) in seen then seen else seen + {key(xs[0])};
      var off := if key(xs[0]) in seen then 0 else 1;
      var rest := KeepFirst(xs[1..], key, seen');
      KeepFirstOrder(xs[1..], key, seen');
      assert ys == if key(xs[0]) in seen then rest else [xs[0]] + rest;
      forall i, j, n | 0 <= i < j < |ys| && 0 <= n < |xs| && key(xs[n]) == key(ys[j])
        ensures exists m :: 0 <= m < n && key(xs[m]) == key(ys[i])
      {
        assert ys[j] == rest[j - off];
        assert key(rest[j - off]) !in seen';
        assert n > 0;
        if off == 1 && i == 0 {
          assert key(xs[0]) == key(ys[i]);
        } else {
          assert ys[i] == rest[i - off];
          assert xs[n] == xs[1..][n - 1];
          assert 0 <= i - off < j - off < |rest| && 0 <= n - 1 < |xs[1..]|
            && key(xs[1..][n - 1]) == key(rest[j - off]);
          var m :| 0 <= m < n - 1 && key(xs[1..][m]) == key(rest[i - off]);
          assert xs[m + 1] == xs[1..][m];
        }
      }
    }
  }

  /** Rows whose keys are distinct and unseen are all kept. */
  lemma {:induction false} KeepFirstOfDistinct<T, K>(xs: seq<T>, key: T -> K, seen: set<K>)
    requires forall i :: 0 <= i < |xs| ==> key(xs[i]) !in seen
    requires forall i, j :: 0 <= i < j < |xs| ==> key(xs[i]) != key(xs[j])
    ensures KeepFirst(xs, key, seen) == xs
    decreases xs
  {
    if xs != [] {
      var seen' := seen + {key(xs[0])};
      forall i | 0 <= i < |xs[1..]| ensures key(xs[1..][i]) !in seen' {
        assert xs[1..][i] == xs[i + 1];
      }
      forall i, j | 0 <= i < j < |xs[1..]| ensures key(xs[1..][i]) != key(xs[1..][j]) {
        assert xs[1..][i] == xs[i + 1] && xs[1..][j] == xs[j + 1];
      }
      KeepFirstOfDistinct(xs[1..], key, seen');
    }
  }

  /** De-duplicating twice is de-duplicating once. */
  lemma KeepFirstIdempotent<T, K>(xs: seq<T>, key: T -> K)
    ensures KeepFirst(KeepFirst(xs, key, {}), key, {}) == KeepFirst(xs, key, {})
  {
    KeepFirstOfDistinct(KeepFirst(xs, key, {}), key, {});
  }

  function PaperKey(p: Paper): string { p.paperId }

  function LinkKey(l: Link): Link { l }

  /** `drop_duplicates(subset='paper_id')` (line 415). */
  function DedupPapers(papers: seq<Paper>): (ps: seq<Paper>)
    ensures |ps| <= |papers| && (ps == [] <==> papers == [])
    ensures forall i, j :: 0 <= i < j < |ps| ==> ps[i].paperId != ps[j].paperId
  {
    KeepFirst(papers, PaperKey, {})
  }

  /** `drop_duplicates()` over whole rows (line 426). */
  function DedupLinks(links: seq<Link>): (ls: seq<Link>)
    ensures |ls| <= |links| && (ls == [] <==> links == [])
    ensures forall i, j :: 0 <= i < j < |ls| ==> ls[i] != ls[j]
  {
    KeepFirst(links, LinkKey, {})
  }

  /** The three tables written to `papers.csv`, `authors.csv` and
      `paper_authors.csv`. */
  datatype Tables = Tables(papers: seq<Paper>, authors: map<string, Author>, links: seq<Link>)

  /** `_export_data` without the file writes. The tables are written even
      when no paper was found: pandas' `drop_duplicates` returns a copy of
      an empty frame before it looks up its `subset` column. */
  function ExportTables(r: Repo): (t: Tables)
    ensures t.authors == r.authors
    ensures t.papers == [] <==> r.papers == []
    ensures |t.papers| <= |r.papers| && |t.links| <= |r.links|
  {
    Tables(DedupPapers(r.papers), r.authors, DedupLinks(r.links))
  }

  /** The exported papers: one row per stored id, the first one stored
      with that id, in storage order. */
  lemma ExportPapers(r: Repo)
    ensures var ps := ExportTables(r).papers;
      && Subsequence(ps, r.papers)
      && (forall i, j :: 0 <= i < j < |ps| ==> ps[i].paperId != ps[j].paperId)
      && (forall i :: 0 <= i < |r.papers| ==> exists j :: 0 <= j < |ps| && ps[j].paperId == r.papers[i].paperId)
      && (forall i :: 0 <= i < |ps| ==> FirstWithKey(r.papers, PaperKey, ps[i]))
      && FirstOccurrenceOrder(r.papers, PaperKey, ps)
  {
    KeepFirstOrder(r.papers, PaperKey, {});
    KeepFirstSubsequence(r.papers, PaperKey, {});
    KeepFirstCovers(r.papers, PaperKey, {});
    KeepFirstIsFirst(r.papers, PaperKey, {});
  }

  /** The exported links: every distinct stored link exactly once, first
      occurrences in storage order. */
  lemma ExportLinks(r: Repo)
    ensures var ls := ExportTables(r).links;
      && Subsequence(ls, r.links)
      && (forall i, j :: 0 <= i < j < |ls| ==> ls[i] != ls[j])
      && (forall l :: l in r.links <==> l in ls)
      && FirstOccurrenceOrder(r.links, LinkKey, ls)
  {
    var ls := ExportTables(r).links;
    KeepFirstOrder(r.links, LinkKey, {});
    KeepFirstSubsequence(r.links, LinkKey, {});
    SubsequenceMembers(ls, r.links);
    KeepFirstCovers(r.links, LinkKey, {});
    forall l | l in r.links ensures l in ls {
      var i :| 0 <= i < |r.links| && r.links[i] == l;
      var j :| 0 <= j < |ls| && LinkKey(ls[j]) == LinkKey(r.links[i]);
    }
  }

  /** The exported tables of a valid repository are referentially sound:
      every link row names an exported author and an exported paper. */
  lemma ExportResolves(r: Repo)
    requires Valid(r)
    ensures var t := ExportTables(r);
      forall i :: 0 <= i < |t.links| ==>
        t.links[i].authorId in t.authors && HasPaper(t.papers, t.links[i].paperId)
  {
    var t := ExportTables(r);
    ExportLinks(r);
    ExportPapers(r);
    forall i | 0 <= i < |t.links|
      ensures t.links[i].authorId in t.authors && HasPaper(t.papers, t.links[i].paperId)
    {
      assert t.links[i] in r.links;
      var n :| 0 <= n < |r.links| && r.links[n] == t.links[i];
      var p :| 0 <= p < |r.papers| && r.papers[p].paperId == t.links[i].paperId;
      var q :| 0 <= q < |t.papers| && t.papers[q].paperId == r.papers[p].paperId;
    }
  }
}

=== FILE: fallback.dfy ===
/** Ordered fallback selection: every field of a card or page is looked up
    with a list of selectors tried in order, and the first one that finds
    something wins. `query_selector_all` gives a (possibly empty) list per
    selector; `query_selector` gives at most one element per selector. */
module Fallback {
  import opened Wrappers

  /** The first candidate list that is non-empty, or the empty list when
      every selector came back empty. */
  function FirstNonEmpty<T>(candidates: seq<seq<T>>): (r: seq<T>)
    ensures r == [] <==> forall k :: 0 <= k < |candidates| ==> candidates[k] == []
    ensures r != [] ==> exists k :: (0 <= k < |candidates| && candidates[k] == r
      && forall j :: 0 <= j < k ==> candidates[j] == [])
  {
    if candidates == [] then []
    else if candidates[0] != [] then candidates[0]
    else
      var r := FirstNonEmpty(candidates[1..]);
      assert forall k :: 1 <= k < |candidates| ==> candidates[k] == candidates[1..][k - 1];
      r
  }

  /** The first selector that matched an element, or None when none did. */
  function FirstSome<T>(candidates: seq<Option<T>>): (r: Option<T>)
    ensures r.None? <==> forall k :: 0 <= k < |candidates| ==> candidates[k].None?
    ensures r.Some? ==> exists k :: (0 <= k < |candidates| && candidates[k] == r
      && forall j :: 0 <= j < k ==> candidates[j].None?)
  {
    if candidates == [] then None
    else if candidates[0].Some? then candidates[0]
    else
      var r := FirstSome(candidates[1..]);
      assert forall k :: 1 <= k < |candidates| ==> candidates[k] == candidates[1..][k - 1];
      r
  }

  /** A selector that matches hides every later one. */
  lemma {:induction false} FirstNonEmptyPrefers<T>(before: seq<seq<T>>, hit: seq<T>, after: seq<seq<T>>)
    requires forall k :: 0 <= k < |before| ==> before[k] == []
    requires hit != []
    ensures FirstNonEmpty(before + [hit] + after) == hit
  {
    if before != [] {
      assert (before + [hit] + after)[1..] == before[1..] + [hit] + after;
      FirstNonEmptyPrefers(before[1..], hit, after);
    }
  }

  /** When the primary selector misses, the secondary's match is used. */
  lemma {:induction false} FirstSomePrefers<T>(before: seq<Option<T>>, hit: T, after: seq<Option<T>>)
    requires forall k :: 0 <= k < |before| ==> before[k].None?
    ensures FirstSome(before + [Some(hit)] + after) == Some(hit)
  {
    if before != [] {
      assert (before + [Some(hit)] + after)[1..] == before[1..] + [Some(hit)] + after;
      FirstSomePrefers(before[1..], hit, after);
    }
  }
}

=== FILE: hrefs.dfy ===
/** How the search loop turns a card's `href` attribute into an absolute
    URL and an identifier (main.py lines 171-181 for papers, 241-250 for
    authors), and how the profile loop re-derives the identifier from the
    queued URL (line 320). */
module Hrefs {
  import opened Text

  const BaseUrl: string := "https://www.semanticscholar.org"
  const PaperMarker: string := "/paper/"
  const AuthorMarker: string := "/author/"

  /** Only hrefs containing `/paper/` are taken as paper links. */
  predicate IsPaperHref(h: string) {
    Contains(h, PaperMarker)
  }

  /** Only hrefs containing `/author/` are taken as author links. */
  predicate IsAuthorHref(h: string) {
    Contains(h, AuthorMarker)
  }

  /** An href is made absolute by prefixing the site's base URL unless it
      already starts with `http`. */
  function Absolute(h: string): (u: string)
    ensures StartsWith(h, "http") ==> u == h
    ensures !StartsWith(h, "http") ==> u == BaseUrl + h
    ensures StartsWith(u, "http")
  {
    if StartsWith(h, "http") then h
    else
      assert (BaseUrl + h)[..4] == BaseUrl[..4];
      BaseUrl + h
  }

  /** The identifier of an href, Python's `href.rstrip('/').split('/')[-1]`:
      trailing slashes are dropped, then the text after the last remaining
      slash is taken. */
  function IdOf(h: string): string {
    var m := StrippedLength(h, |h|);
    h[SlashBefore(h, m) + 1..m]
  }

  /** `IdOf` is Python's `href.rstrip('/').split('/')[-1]`. */
  lemma IdOfIsSplitOfStripped(h: string)
    ensures IdOf(h) == LastSegment(RStripSlashes(h))
  {
    var m := StrippedLength(h, |h|);
    var s := h[..m];
    var k := SlashBefore(h, m);
    SlashBeforeSpec(h, m);
    forall j | k < j < |s| ensures s[j] != '/' {
      assert s[j] == h[j];
    }
    SlashBeforeUnique(s, |s|, k);
    assert s[k + 1..] == h[k + 1..m];
  }

  /** Both markers begin with a slash followed by a letter, which is all
      the identifier rules need from them. */
  lemma MarkerShape(h: string) returns (i: int)
    requires IsPaperHref(h) || IsAuthorHref(h)
    ensures 0 <= i && i + 1 < |h| && h[i] == '/' && h[i + 1] != '/'
  {
    if IsPaperHref(h) {
      var j :| 0 <= j <= |h| - |PaperMarker| && OccursAt(h, PaperMarker, j);
      assert h[j] == h[j..j + 7][0] && h[j + 1] == h[j..j + 7][1];
      i := j;
    } else {
      var j :| 0 <= j <= |h| - |AuthorMarker| && OccursAt(h, AuthorMarker, j);
      assert h[j] == h[j..j + 8][0] && h[j + 1] == h[j..j + 8][1];
      i := j;
    }
  }

  /** An accepted href always yields a non-empty, slash-free identifier, and
      appending trailing slashes to it does not change that identifier. */
  lemma AcceptedHrefId(h: string, n: nat)
    requires IsPaperHref(h) || IsAuthorHref(h)
    ensures IdOf(h) != [] && '/' !in IdOf(h)
    ensures IdOf(h + Slashes(n)) == IdOf(h)
  {
    var i := MarkerShape(h);
    RStripKeepsNonSlash(h, i + 1);
    RStripIgnoresTrailingSlashes(h, n);
    IdOfIsSplitOfStripped(h);
    IdOfIsSplitOfStripped(h + Slashes(n));
  }

  /** Making an accepted href absolute does not change its identifier. */
  lemma IdOfAbsolute(h: string)
    requires IsPaperHref(h) || IsAuthorHref(h)
    ensures IdOf(Absolute(h)) == IdOf(h)
  {
    if !StartsWith(h, "http") {
      var i := MarkerShape(h);
      RStripKeepsNonSlash(h, i + 1);
      RStripPrefix(BaseUrl, h, i + 1);
      var s := RStripSlashes(h);
      assert s[i] == '/';
      LastSegmentPrefix(BaseUrl, s, i);
      IdOfIsSplitOfStripped(h);
      IdOfIsSplitOfStripped(BaseUrl + h);
    }
  }

  /** The profile loop takes `url.split('/')[-1]` of the queued absolute URL
      without stripping slashes; that agrees with the identifier the author
      was stored under exactly when the href has no trailing slash. */
  lemma ProfileKeyAgreement(h: string)
    requires IsAuthorHref(h)
    ensures LastSegment(Absolute(h)) == IdOf(h) <==> !EndsWithSlash(h)
  {
    var i := MarkerShape(h);
    AcceptedHrefId(h, 0);
    var u := Absolute(h);
    if EndsWithSlash(h) {
      assert u[|u| - 1] == '/';
      assert SlashBefore(u, |u|) == |u| - 1;
    } else {
      assert StrippedLength(h, |h|) == |h| && h[..|h|] == h;
      if !StartsWith(h, "http") {
        LastSegmentPrefix(BaseUrl, h, i);
      }
    }
  }
}

=== FILE: numbers.dfy ===
/** Number recognition on card and profile text: the leftmost run of
    digits and commas (`re.search(r'([\d,]+)', text)`), the decimal parse
    that follows the removal of commas (`int(run.replace(',', ''))`), and
    the publication year pattern `\b(19|20)\d{2}\b`. */
module Numbers {
  import opened Wrappers

  predicate IsDigit(c: char) {
    '0' <= c <= '9'
  }

  /** Characters of the class `[\d,]`. */
  predicate IsRunChar(c: char) {
    IsDigit(c) || c == ','
  }

  /** Characters of the class `\w`, which decide the `\b` boundaries. */
  predicate IsWordChar(c: char) {
    IsDigit(c) || ('a' <= c <= 'z') || ('A' <= c <= 'Z') || c == '_'
  }

  predicate AllDigits(s: string) {
    forall k :: 0 <= k < |s| ==> IsDigit(s[k])
  }

  function DigitValue(c: char): (d: nat)
    requires IsDigit(c)
    ensures d < 10
  {
    c as int - '0' as int
  }

  /** The value of a string of decimal digits, most significant first. */
  function DecimalValue(s: string): nat
    requires AllDigits(s)
  {
    if s == [] then 0 else 10 * DecimalValue(s[..|s| - 1]) + DigitValue(s[|s| - 1])
  }

  /** CPython's default limit on the number of digits `int()` converts
      from a decimal string (`sys.int_info.default_max_str_digits`, in
      force since CPython 3.11 and the 3.7-3.10 security releases). */
  const MaxStrDigits: nat := 4300

  /** Python's `int(s)` on a string that holds nothing but what the digit
      and comma class let through: an empty string, a non-digit or more than
      `MaxStrDigits` digits is the `ValueError` case. */
  function ParseDecimal(s: string): (r: Option<nat>)
    ensures r.Some? <==> s != [] && AllDigits(s) && |s| <= MaxStrDigits
  {
    if s != [] && AllDigits(s) && |s| <= MaxStrDigits then Some(DecimalValue(s)) else None
  }

  /** `s.replace(',', '')`: each character is kept, in order, unless it is
      a comma (with `DropCommasAppend`, this fixes the result). */
  function DropCommas(s: string): (r: string)
    ensures ',' !in r && |r| <= |s|
    ensures forall c :: c in r <==> c in s && c != ','
    ensures |s| == 1 ==> r == (if s[0] == ',' then [] else s)
  {
    if s == [] then []
    else if s[0] == ',' then DropCommas(s[1..])
    else [s[0]] + DropCommas(s[1..])
  }

  /** `replace` works character by character: the result for two texts
      one after the other is the two results one after the other. */
  lemma {:induction false} DropCommasAppend(a: string, b: string)
    ensures DropCommas(a + b) == DropCommas(a) + DropCommas(b)
    decreases a
  {
    if a == [] {
      assert a + b == b;
    } else {
      assert (a + b)[0] == a[0] && (a + b)[1..] == a[1..] + b;
      DropCommasAppend(a[1..], b);
    }
  }

  /** Index of the first run character at or after `i`, or `|s|`. */
  function RunStart(s: string, i: nat): (r: nat)
    requires i <= |s|
    ensures i <= r <= |s|
    ensures forall k :: i <= k < r ==> !IsRunChar(s[k])
    ensures r < |s| ==> IsRunChar(s[r])
    decreases |s| - i
  {
    if i == |s| || IsRunChar(s[i]) then i else RunStart(s, i + 1)
  }

  /** Index just past the maximal run of run characters that starts at `i`. */
  function RunEnd(s: string, i: nat): (r: nat)
    requires i <= |s|
    ensures i <= r <= |s|
    ensures forall k :: i <= k < r ==> IsRunChar(s[k])
    ensures r < |s| ==> !IsRunChar(s[r])
    decreases |s| - i
  {
    if i == |s| || !IsRunChar(s[i]) then i else RunEnd(s, i + 1)
  }

  /** What `re.search(r'([\d,]+)', s)` captures: the leftmost maximal,
      non-empty run of digits and commas, or nothing when `s` has none. */
  function LeftmostRun(s: string): (r: Option<string>)
    ensures r.None? <==> forall k :: 0 <= k < |s| ==> !IsRunChar(s[k])
    ensures r.Some? ==> exists a, b :: IsLeftmostRun(s, a, b) && r.value == s[a..b]
  {
    var a := RunStart(s, 0);
    if a == |s| then None
    else
      var b := RunEnd(s, a);
      assert IsLeftmostRun(s, a, b);
      Some(s[a..b])
  }

  /** `s[a..b]` is the first maximal run of digits and commas in `s`. */
  predicate IsLeftmostRun(s: string, a: int, b: int) {
    && 0 <= a < b <= |s|
    && (forall k :: 0 <= k < a ==> !IsRunChar(s[k]))
    && (forall k :: a <= k < b ==> IsRunChar(s[k]))
    && (b == |s| || !IsRunChar(s[b]))
  }

  /** The count parsed from a text: the leftmost digit/comma run with its
      commas removed, read as a decimal. A run of commas alone raises
      `ValueError` in the source and yields no count here. */
  function ParseCount(s: string): (r: Option<nat>)
  {
    match LeftmostRun(s)
    case None => None
    case Some(run) => ParseDecimal(DropCommas(run))
  }

  lemma DropCommasOfRun(run: string)
    requires forall k :: 0 <= k < |run| ==> IsRunChar(run[k])
    ensures AllDigits(DropCommas(run))
  {
    var d := DropCommas(run);
    forall k | 0 <= k < |d| ensures IsDigit(d[k]) {
      assert d[k] in d;
    }
  }

  /** A count is found exactly when the leftmost run contains a digit and
      at most `MaxStrDigits` of them, and it is then the decimal read from
      that run's digits. */
  lemma {:induction false} ParseCountSpec(s: string)
    ensures ParseCount(s).Some? <==> exists a, b, k :: (IsLeftmostRun(s, a, b) && a <= k < b && IsDigit(s[k])
      && |DropCommas(s[a..b])| <= MaxStrDigits)
    ensures ParseCount(s).Some? ==>
      exists a, b :: IsLeftmostRun(s, a, b) && ParseCount(s).value == DecimalValue(DropCommas(s[a..b]))
  {
    var a := RunStart(s, 0);
    if a < |s| {
      var b := RunEnd(s, a);
      assert IsLeftmostRun(s, a, b);
      LeftmostRunUnique(s, a, b);
      var run := s[a..b];
      DropCommasOfRun(run);
      if exists k :: a <= k < b && IsDigit(s[k]) {
        var k :| a <= k < b && IsDigit(s[k]);
        assert run[k - a] == s[k];
        assert s[k] in DropCommas(run);
      } else {
        forall k | 0 <= k < |run| ensures run[k] == ',' {
          assert run[k] == s[a + k];
        }
        DropCommasOfCommas(run);
      }
    } else {
      forall a', b' | 0 <= a' < b' <= |s| ensures !IsLeftmostRun(s, a', b') {
        assert !IsRunChar(s[a']);
      }
    }
  }

  lemma DropCommasOfCommas(s: string)
    requires forall k :: 0 <= k < |s| ==> s[k] == ','
    ensures DropCommas(s) == []
  {
    if s != [] {
      DropCommasOfCommas(s[1..]);
    }
  }

  /** There is only one leftmost maximal run. */
  lemma LeftmostRunUnique(s: string, a: int, b: int)
    requires IsLeftmostRun(s, a, b)
    ensures forall a', b' :: IsLeftmostRun(s, a', b') ==> a' == a && b' == b
  {
    forall a', b' | IsLeftmostRun(s, a', b') ensures a' == a && b' == b {
      assert IsRunChar(s[a']) && IsRunChar(s[a]);
    }
  }

  /** The canonical decimal rendering of `n`. */
  function Digits(n: nat): (s: string)
    ensures s != [] && AllDigits(s)
  {
    if n < 10 then [('0' as int + n) as char]
    else Digits(n / 10) + [('0' as int + n % 10) as char]
  }

  /** Round trip: `int(str(n))` is `n` for every `n` whose rendering is
      within the digit limit. */
  lemma ParseDecimalOfDigits(n: nat)
    requires |Digits(n)| <= MaxStrDigits
    ensures ParseDecimal(Digits(n)) == Some(n)
  {
    DecimalValueOfDigits(n);
  }

  lemma {:induction false} DecimalValueOfDigits(n: nat)
    ensures DecimalValue(Digits(n)) == n
  {
    if n >= 10 {
      var s := Digits(n);
      assert s[..|s| - 1] == Digits(n / 10);
      DecimalValueOfDigits(n / 10);
    }
  }

  lemma DropCommasOfDigits(s: string)
    requires AllDigits(s)
    ensures DropCommas(s) == s
  {
    if s != [] {
      DropCommasOfDigits(s[1..]);
    }
  }

  /** Round trip: a number written out in decimal inside text that has no
      other digits or commas before it, and does not continue the run after
      it, is read back as itself. */
  lemma ParseCountOfRendered(pre: string, n: nat, post: string)
    requires forall k :: 0 <= k < |pre| ==> !IsRunChar(pre[k])
    requires post == [] || !IsRunChar(post[0])
    requires |Digits(n)| <= MaxStrDigits
    ensures ParseCount(pre + Digits(n) + post) == Some(n)
  {
    var d := Digits(n);
    var s := pre + d + post;
    var a, b := |pre|, |pre| + |d|;
    assert s[a..b] == d;
    assert IsLeftmostRun(s, a, b);
    assert IsDigit(s[a]);
    ParseCountSpec(s);
    LeftmostRunUnique(s, a, b);
    DropCommasOfDigits(d);
    ParseDecimalOfDigits(n);
  }

  /** Card citation text "12,450" is read as 12450. */
  lemma ParseCountExample()
    ensures ParseCount("12,450") == Some(12450)
  {
    var s := "12,450";
    assert IsLeftmostRun(s, 0, 6);
    LeftmostRunUnique(s, 0, 6);
    assert s[0..6] == s;
    assert LeftmostRun(s) == Some(s);
    CommaDigitsExample();
  }

  lemma CommaDigitsExample()
    ensures ParseDecimal(DropCommas("12,450")) == Some(12450)
  {
    assert DropCommas("12,450") == "12450" by {
      assert "12,450"[1..] == "2,450" && "2,450"[1..] == ",450";
      assert ",450"[1..] == "450";
      DropCommasOfDigits("450");
    }
    DecimalExample();
  }

  lemma DecimalExample()
    ensures DecimalValue("12450") == 12450
  {
    assert "12450"[..4] == "1245";
    assert "1245"[..3] == "124";
    assert "124"[..2] == "12";
    assert "12"[..1] == "1";
    assert "1"[..0] == "";
  }

  /** A run made only of commas gives no count. */
  lemma CommaRunExample()
    ensures ParseCount("cited by ,, papers") == None
  {
    var s := "cited by ,, papers";
    assert IsLeftmostRun(s, 9, 11);
    ParseCountSpec(s);
    LeftmostRunUnique(s, 9, 11);
  }

  // ----- publication year -----

  /** The pattern `\b(19|20)\d{2}\b` matches at index `i` of `s`. */
  predicate YearAt(s: string, i: int) {
    && 0 <= i && i + 4 <= |s|
    && ((s[i] == '1' && s[i + 1] == '9') || (s[i] == '2' && s[i + 1] == '0'))
    && IsDigit(s[i + 2]) && IsDigit(s[i + 3])
    && (i == 0 || !IsWordChar(s[i - 1]))
    && (i + 4 == |s| || !IsWordChar(s[i + 4]))
  }

  /** Leftmost match of the year pattern at or after `i`. */
  function FindYear(s: string, i: nat): (r: Option<nat>)
    requires i <= |s|
    ensures r.None? <==> forall j :: i <= j <= |s| ==> !YearAt(s, j)
    ensures r.Some? ==> (i <= r.value && YearAt(s, r.value)
      && forall j :: i <= j < r.value ==> !YearAt(s, j))
    decreases |s| - i
  {
    if i + 4 > |s| then None
    else if YearAt(s, i) then Some(i)
    else FindYear(s, i + 1)
  }

  /** The year of a card: the integer value of the leftmost match of the
      year pattern, or nothing when it does not occur. */
  function YearOf(s: string): (y: Option<nat>)
    ensures y.None? <==> forall j :: 0 <= j <= |s| ==> !YearAt(s, j)
    ensures y.Some? ==> 1900 <= y.value <= 2099
    ensures y.Some? ==> exists i :: (YearAt(s, i)
      && (forall j :: 0 <= j < i ==> !YearAt(s, j))
      && y.value == DecimalValue(s[i..i + 4]))
  {
    match FindYear(s, 0)
    case None => None
    case Some(i) =>
      var t := s[i..i + 4];
      assert AllDigits(t);
      YearValueBounds(t);
      Some(DecimalValue(t))
  }

  lemma YearValueBounds(t: string)
    requires |t| == 4 && AllDigits(t)
    requires (t[0] == '1' && t[1] == '9') || (t[0] == '2' && t[1] == '0')
    ensures 1900 <= DecimalValue(t) <= 2099
  {
    assert t[..4] == t;
    assert t[..4][..3] == t[..3] && t[..3][..2] == t[..2] && t[..2][..1] == t[..1];
    assert DecimalValue(t[..1]) == DigitValue(t[0]);
    assert DecimalValue(t[..2]) == 10 * DigitValue(t[0]) + DigitValue(t[1]);
  }
}

=== FILE: profiles.dfy ===
/** The profile phase (`_scrape_author_profiles`, main.py lines 309-404):
    every queued profile URL is visited once and the citation count read
    from the page is stored on the author record the URL belongs to. The
    browser is replaced by what the page offered to each reading strategy. */
module Profiles {
  import opened Wrappers
  import opened Text
  import opened Hrefs
  import opened Numbers
  import opened Repository

  /** Candidates above this are not taken for citation counts (line 362). */
  const MaxPlausible: nat := 1000000

  /** What a profile visit offered:
      - `GotoFailed`: navigation raised, so the generic handler runs (lines 392-397);
      - `StatsMissing`: the stats section did not appear in time (lines 338, 386-388);
      - `Stats`: the inner texts of the matches of each stat selector
        (lines 343-353) and, for each text pattern of Strategy 3, the first
        group of its first match on the page text, if it matched (lines 367-383). */
  datatype ProfileView =
    | GotoFailed
    | StatsMissing
    | Stats(statTexts: seq<seq<string>>, patternGroups: seq<Option<string>>)

  /** The count a stat text offers to Strategy 2: its leftmost digit/comma
      run read as a number, when that lies in `[0, MaxPlausible]`. */
  function Candidate(text: string): (c: Option<nat>)
    ensures c.Some? ==> c.value <= MaxPlausible && ParseCount(text) == c
    ensures ParseCount(text).Some? && ParseCount(text).value <= MaxPlausible ==> c == ParseCount(text)
  {
    match ParseCount(text)
    case Some(n) => if n <= MaxPlausible then Some(n) else None
    case None => None
  }

  /** Every candidate of `texts` is at most `m`. */
  ghost predicate Bounds(texts: seq<string>, m: nat) {
    forall i :: 0 <= i < |texts| && Candidate(texts[i]).Some? ==> Candidate(texts[i]).value <= m
  }

  /** `m` is the candidate of one of `texts`. */
  ghost predicate Offers(texts: seq<string>, m: nat) {
    exists i :: 0 <= i < |texts| && Candidate(texts[i]) == Some(m)
  }

  /** `max` folded over the candidates of one selector's texts, from `acc`. */
  function MaxCandidate(texts: seq<string>, acc: nat): (m: nat)
    requires acc <= MaxPlausible
    ensures acc <= m <= MaxPlausible
    ensures Bounds(texts, m)
    ensures m == acc || Offers(texts, m)
    decreases texts
  {
    if texts == [] then acc
    else
      var acc' := match Candidate(texts[0]) case Some(n) => Max(acc, n) case None => acc;
      var m := MaxCandidate(texts[1..], acc');
      assert forall i :: 1 <= i < |texts| ==> texts[i] == texts[1..][i - 1];
      assert m != acc' ==> Offers(texts, m) by {
        if m != acc' {
          var i :| 0 <= i < |texts[1..]| && Candidate(texts[1..][i]) == Some(m);
          assert texts[i + 1] == texts[1..][i];
        }
      }
      m
  }

  /** Strategy 2 (lines 341-363): the largest plausible candidate over the
      texts of all stat selectors, 0 when there is none. */
  function Strategy2(statTexts: seq<seq<string>>, acc: nat): (m: nat)
    requires acc <= MaxPlausible
    ensures acc <= m <= MaxPlausible
    ensures forall s :: 0 <= s < |statTexts| ==> Bounds(statTexts[s], m)
    ensures m == acc || exists s :: 0 <= s < |statTexts| && Offers(statTexts[s], m)
    decreases statTexts
  {
    if statTexts == [] then acc
    else
      var acc' := MaxCandidate(statTexts[0], acc);
      var m := Strategy2(statTexts[1..], acc');
      assert forall s :: 1 <= s < |statTexts| ==> statTexts[s] == statTexts[1..][s - 1];
      assert Bounds(statTexts[0], m);
      m
  }

  /** A pattern matched and its group, commas removed, passes `int()`. */
  predicate GroupParses(g: Option<string>) {
    g.Some? && ParseDecimal(DropCommas(g.value)).Some?
  }

  /** Strategy 3 (lines 366-383): the first pattern whose group, commas
      removed, is a decimal number; 0 when none is. No range check. */
  function Strategy3(groups: seq<Option<string>>): (n: nat)
    ensures (forall i :: 0 <= i < |groups| ==> !GroupParses(groups[i])) ==> n == 0
    ensures (exists i :: 0 <= i < |groups| && GroupParses(groups[i])) ==>
      exists i :: (0 <= i < |groups| && GroupParses(groups[i])
        && ParseDecimal(DropCommas(groups[i].value)) == Some(n)
        && forall j :: 0 <= j < i ==> !GroupParses(groups[j]))
    decreases groups
  {
    if groups == [] then 0
    else if GroupParses(groups[0]) then
      ParseDecimal(DropCommas(groups[0].value)).value
    else
      var n := Strategy3(groups[1..]);
      assert forall i :: 1 <= i < |groups| ==> groups[i] == groups[1..][i - 1];
      n
  }

  /** The value a visit stores in `citation_count` (lines 334-397): None
      when the visit raised, 0 when the stats never appeared, otherwise
      Strategy 2's count, or Strategy 3's when Strategy 2 found 0. */
  function ProfileCitation(v: ProfileView): (c: Option<nat>)
    ensures c.None? <==> v.GotoFailed?
    ensures v.StatsMissing? ==> c == Some(0)
    ensures v.Stats? && Strategy2(v.statTexts, 0) != 0 ==> c == Some(Strategy2(v.statTexts, 0))
    ensures v.Stats? && Strategy2(v.statTexts, 0) == 0 ==> c == Some(Strategy3(v.patternGroups))
  {
    match v
    case GotoFailed => None
    case StatsMissing => Some(0)
    case Stats(texts, groups) =>
      var c2 := Strategy2(texts, 0);
      Some(if c2 == 0 then Strategy3(groups) else c2)
  }

  /** Strategy 3 is consulted only when Strategy 2 found nothing: with a
      plausible non-zero stat candidate on the page, the text patterns make
      no difference and the stored count is at most `MaxPlausible`. */
  lemma Strategy3OnlyAsFallback(texts: seq<seq<string>>, groups: seq<Option<string>>,
                                groups': seq<Option<string>>, s: int, i: int)
    requires 0 <= s < |texts| && 0 <= i < |texts[s]|
    requires Candidate(texts[s][i]).Some? && Candidate(texts[s][i]).value > 0
    ensures ProfileCitation(Stats(texts, groups)) == ProfileCitation(Stats(texts, groups'))
    ensures ProfileCitation(Stats(texts, groups)).value <= MaxPlausible
  {
  }

  /** The stored record with only its citation count replaced. */
  function SetCitation(authors: map<string, Author>, id: string, c: Option<nat>): (m: map<string, Author>)
    requires id in authors
    ensures m.Keys == authors.Keys
    ensures m[id] == authors[id].(citationCount := c)
    ensures forall k :: k in authors && k != id ==> m[k] == authors[k]
  {
    authors[id := authors[id].(citationCount := c)]
  }

  /** `a'` differs from `a` at most in citation counts. */
  ghost predicate SameButCounts(a: map<string, Author>, a': map<string, Author>) {
    && a'.Keys == a.Keys
    && forall k :: k in a ==> Uncounted(a'[k]) == Uncounted(a[k])
  }

  /** An author record with its count forgotten. */
  function Uncounted(a: Author): Author {
    a.(citationCount := None)
  }

  /** The profile loop (lines 316-397) with the id derivation `key` left
      open: the URLs of `order` are visited in turn, `cite(u)` being the
      value the visit of `u` stores (`ProfileCitation` of what the page
      offered). A URL whose key is a known author sets that author's count;
      any other URL changes nothing. */
  function Visit(authors: map<string, Author>, order: seq<string>, key: string -> string,
                 cite: string -> Option<nat>): (m: map<string, Author>)
    ensures m.Keys == authors.Keys
    decreases order
  {
    if order == [] then authors
    else
      var id := key(order[0]);
      var a := if id in authors then SetCitation(authors, id, cite(order[0])) else authors;
      Visit(a, order[1..], key, cite)
  }

  /** The same loop when a key that is not an author is fatal: the update
      raises `KeyError` (line 390), the generic handler catches it only to
      raise it again (line 397), and the run ends with that key. */
  function VisitStrict(authors: map<string, Author>, order: seq<string>, key: string -> string,
                       cite: string -> Option<nat>): (res: Result<map<string, Author>, string>)
    ensures res.Failure? ==> res.error !in authors
    decreases order
  {
    if order == [] then Success(authors)
    else
      var id := key(order[0]);
      if id !in authors then Failure(id)
      else VisitStrict(SetCitation(authors, id, cite(order[0])), order[1..], key, cite)
  }

  /** The corrected profile loop: the id is derived as the search loop
      derived it, trailing slashes skipped. */
  function VisitProfiles(authors: map<string, Author>, order: seq<string>,
                         cite: string -> Option<nat>): (m: map<string, Author>)
    ensures m.Keys == authors.Keys
  {
    Visit(authors, order, IdOf, cite)
  }

  /** The profile loop as written: the id is `url.split('/')[-1]` of the
      queued URL, with no slash stripping (line 320). */
  function VisitProfilesAsWritten(authors: map<string, Author>, order: seq<string>,
                                  cite: string -> Option<nat>): (res: Result<map<string, Author>, string>)
    ensures res.Failure? ==> res.error !in authors
  {
    VisitStrict(authors, order, LastSegment, cite)
  }

  /** The loop changes nothing but counts. */
  lemma {:induction false} VisitCountsOnly(authors: map<string, Author>, order: seq<string>,
                                           key: string -> string, cite: string -> Option<nat>)
    ensures SameButCounts(authors, Visit(authors, order, key, cite))
    decreases order
  {
    if order != [] {
      var id := key(order[0]);
      var a := if id in authors then SetCitation(authors, id, cite(order[0])) else authors;
      VisitCountsOnly(a, order[1..], key, cite);
    }
  }

  /** When the strict loop finishes, it has changed nothing but counts. */
  lemma {:induction false} VisitStrictCountsOnly(authors: map<string, Author>, order: seq<string>,
                                                 key: string -> string, cite: string -> Option<nat>)
    ensures var res := VisitStrict(authors, order, key, cite);
      res.Success? ==> SameButCounts(authors, res.value)
    decreases order
  {
    if order != [] {
      var id := key(order[0]);
      if id in authors {
        VisitStrictCountsOnly(SetCitation(authors, id, cite(order[0])), order[1..], key, cite);
      }
    }
  }

  /** Every author's URL has the author's own key. */
  ghost predicate KeyedBy(authors: map<string, Author>, key: string -> string) {
    forall k :: k in authors ==> key(authors[k].profileUrl) == k
  }

  /** `u` is the profile URL of the author stored under `u`'s key. */
  ghost predicate Owned(authors: map<string, Author>, key: string -> string, u: string) {
    key(u) in authors && authors[key(u)].profileUrl == u
  }

  /** When every author's URL has its own key and every visited URL is an
      author's, each author's count is the one read from its own profile if
      that was visited, and is unchanged otherwise. */
  lemma {:induction false} VisitSets(authors: map<string, Author>, order: seq<string>,
                                     key: string -> string, cite: string -> Option<nat>)
    requires KeyedBy(authors, key)
    requires forall i :: 0 <= i < |order| ==> Owned(authors, key, order[i])
    ensures var m := Visit(authors, order, key, cite);
      forall k :: k in authors ==>
        (m[k].citationCount == if authors[k].profileUrl in order then cite(authors[k].profileUrl)
                               else authors[k].citationCount)
    decreases order
  {
    if order != [] {
      var u := order[0];
      var rest := order[1..];
      var id := key(u);
      assert Owned(authors, key, u);
      var a := SetCitation(authors, id, cite(u));
      var m := Visit(authors, order, key, cite);
      assert m == Visit(a, rest, key, cite);
      forall k | k in a ensures key(a[k].profileUrl) == k {
        assert a[k].profileUrl == authors[k].profileUrl;
      }
      forall i | 0 <= i < |rest| ensures Owned(a, key, rest[i]) {
        assert rest[i] == order[i + 1] && Owned(authors, key, order[i + 1]);
      }
      VisitSets(a, rest, key, cite);
      forall k | k in authors
        ensures m[k].citationCount ==
          if authors[k].profileUrl in order then cite(authors[k].profileUrl)
          else authors[k].citationCount
      {
        var url := authors[k].profileUrl;
        assert a[k].profileUrl == url;
        if k == id {
          assert url == u;
        } else {
          assert key(url) == k && url != u;
        }
        assert url in order <==> url == u || url in rest;
      }
    }
  }

  /** When two key derivations agree on every visited URL and its key is
      always an author, the strict loop succeeds with the lenient loop's
      result. */
  lemma {:induction false} StrictAgrees(authors: map<string, Author>, order: seq<string>,
                                        key: string -> string, key': string -> string,
                                        cite: string -> Option<nat>)
    requires forall i :: 0 <= i < |order| ==> key(order[i]) == key'(order[i]) && key(order[i]) in authors
    ensures VisitStrict(authors, order, key, cite) == Success(Visit(authors, order, key', cite))
    decreases order
  {
    if order != [] {
      var u := order[0];
      var rest := order[1..];
      var a := SetCitation(authors, key(u), cite(u));
      assert VisitStrict(authors, order, key, cite) == VisitStrict(a, rest, key, cite);
      assert Visit(authors, order, key', cite) == Visit(a, rest, key', cite);
      forall i | 0 <= i < |rest| ensures key(rest[i]) == key'(rest[i]) && key(rest[i]) in a {
        assert rest[i] == order[i + 1];
      }
      StrictAgrees(a, rest, key, key', cite);
    }
  }

  /** The strict loop ends with the first key that is not an author: when
      every key is either an author or `bad`, and `bad` is not an author but
      is the key of some visited URL, it fails with `bad`. */
  lemma {:induction false} StrictFails(authors: map<string, Author>, order: seq<string>,
                                       key: string -> string, cite: string -> Option<nat>,
                                       bad: string, w: nat)
    requires bad !in authors
    requires forall i :: 0 <= i < |order| ==> key(order[i]) in authors || key(order[i]) == bad
    requires w < |order| && key(order[w]) == bad
    ensures VisitStrict(authors, order, key, cite) == Failure(bad)
    decreases w
  {
    var u := order[0];
    if key(u) in authors {
      var rest := order[1..];
      assert w > 0 && rest[w - 1] == order[w];
      var a := SetCitation(authors, key(u), cite(u));
      assert VisitStrict(authors, order, key, cite) == VisitStrict(a, rest, key, cite);
      forall i | 0 <= i < |rest| ensures key(rest[i]) in a || key(rest[i]) == bad {
        assert rest[i] == order[i + 1];
      }
      StrictFails(a, rest, key, cite, bad, w - 1);
    }
  }

  /** The strict loop ends with the key of the first visited URL whose key
      is not an author, whatever comes after it. */
  lemma {:induction false} StrictFailsFirst(authors: map<string, Author>, order: seq<string>,
                                            key: string -> string, cite: string -> Option<nat>, w: nat)
    requires w < |order| && key(order[w]) !in authors
    requires forall i :: 0 <= i < w ==> key(order[i]) in authors
    ensures VisitStrict(authors, order, key, cite) == Failure(key(order[w]))
    decreases w
  {
    if w > 0 {
      var u := order[0];
      var rest := order[1..];
      assert rest[w - 1] == order[w];
      var a := SetCitation(authors, key(u), cite(u));
      assert VisitStrict(authors, order, key, cite) == VisitStrict(a, rest, key, cite);
      forall i | 0 <= i < w - 1 ensures key(rest[i]) in a {
        assert rest[i] == order[i + 1];
      }
      StrictFailsFirst(a, rest, key, cite, w - 1);
    }
  }

  /** Changing counts keeps the map keyed by id and its URLs unchanged. */
  lemma SameButCountsKeeps(a: map<string, Author>, a': map<string, Author>)
    requires SameButCounts(a, a') && KeyedById(a)
    ensures KeyedById(a') && QueueOf(a') == QueueOf(a)
  {
    forall u | u in QueueOf(a) ensures u in QueueOf(a') {
      var k :| k in a && a[k].profileUrl == u;
      assert a'[k].profileUrl == u;
    }
    forall u | u in QueueOf(a') ensures u in QueueOf(a) {
      var k :| k in a' && a'[k].profileUrl == u;
      assert a[k].profileUrl == u;
    }
  }

  /** In a map keyed by id every queued URL belongs to the author stored
      under the URL's id. */
  lemma QueueOwned(authors: map<string, Author>, order: seq<string>)
    requires KeyedById(authors)
    requires forall i :: 0 <= i < |order| ==> order[i] in QueueOf(authors)
    ensures KeyedBy(authors, IdOf)
    ensures forall i :: 0 <= i < |order| ==> Owned(authors, IdOf, order[i])
  {
    forall i | 0 <= i < |order| ensures Owned(authors, IdOf, order[i]) {
      assert order[i] in QueueOf(authors);
      var k :| k in authors && authors[k].profileUrl == order[i];
    }
  }

  /** Visiting exactly the queue of a valid repository stores on every
      author the count read from its own profile page, and changes nothing
      else. */
  lemma VisitAllQueued(r: Repo, order: seq<string>, cite: string -> Option<nat>)
    requires Valid(r)
    requires forall u :: u in r.queue <==> u in order
    ensures var m := VisitProfiles(r.authors, order, cite);
      && m.Keys == r.authors.Keys
      && forall k :: k in r.authors ==> m[k] == r.authors[k].(citationCount := cite(r.authors[k].profileUrl))
  {
    QueueOwned(r.authors, order);
    VisitSets(r.authors, order, IdOf, cite);
    VisitCountsOnly(r.authors, order, IdOf, cite);
    var m := VisitProfiles(r.authors, order, cite);
    forall k | k in r.authors
      ensures m[k] == r.authors[k].(citationCount := cite(r.authors[k].profileUrl))
    {
      assert r.authors[k].profileUrl in QueueOf(r.authors);
      assert Uncounted(m[k]) == Uncounted(r.authors[k]);
    }
  }

  /** A URL that does not end in a slash has the same id either way. */
  lemma IdOfWithoutTrailingSlash(u: string)
    requires !EndsWithSlash(u)
    ensures LastSegment(u) == IdOf(u)
  {
  }

  /** A URL that ends in a slash has the empty last segment. */
  lemma EmptyLastSegment(u: string)
    requires EndsWithSlash(u)
    ensures LastSegment(u) == []
  {
  }

  /** Without trailing slashes on the queued URLs the loop as written
      agrees with the corrected one. */
  lemma AsWrittenAgrees(authors: map<string, Author>, order: seq<string>,
                        cite: string -> Option<nat>)
    requires KeyedById(authors)
    requires forall i :: 0 <= i < |order| ==> order[i] in QueueOf(authors) && !EndsWithSlash(order[i])
    ensures VisitProfilesAsWritten(authors, order, cite) == Success(VisitProfiles(authors, order, cite))
  {
    QueueOwned(authors, order);
    forall i | 0 <= i < |order| ensures LastSegment(order[i]) == IdOf(order[i]) && LastSegment(order[i]) in authors {
      IdOfWithoutTrailingSlash(order[i]);
      assert Owned(authors, IdOf, order[i]);
    }
    StrictAgrees(authors, order, LastSegment, IdOf, cite);
  }

  /** A queued URL that ends in a slash has the empty last segment, which
      is never an author key, so the loop as written aborts with
      `KeyError('')` once it reaches it. */
  lemma AsWrittenAborts(authors: map<string, Author>, order: seq<string>,
                        cite: string -> Option<nat>, w: nat)
    requires KeyedById(authors)
    requires forall i :: 0 <= i < |order| ==> order[i] in QueueOf(authors)
    requires w < |order| && EndsWithSlash(order[w])
    ensures VisitProfilesAsWritten(authors, order, cite) == Failure("")
  {
    QueueOwned(authors, order);
    assert [] !in authors;
    forall i | 0 <= i < |order| ensures LastSegment(order[i]) in authors || LastSegment(order[i]) == [] {
      if EndsWithSlash(order[i]) {
        EmptyLastSegment(order[i]);
      } else {
        IdOfWithoutTrailingSlash(order[i]);
        assert Owned(authors, IdOf, order[i]);
      }
    }
    EmptyLastSegment(order[w]);
    StrictFails(authors, order, LastSegment, cite, [], w);
  }
}

=== FILE: repository.dfy ===
/** The scraper's collected state (main.py lines 34-39): the list of
    papers, the map from author id to author record, the list of
    paper-author links and the set of author profile URLs still to visit,
    together with the two insertion rules the card loop applies to it. */
module Repository {
  import opened Wrappers
  import opened Hrefs

  /** One row of `papers`; `year` and `citationCount` are None when absent. */
  datatype Paper = Paper(paperId: string, title: string, url: string,
                         year: Option<nat>, citationCount: Option<nat>)

  /** One author record; `citationCount` stays None until the profile is
      visited successfully. */
  datatype Author = Author(authorId: string, name: string, profileUrl: string,
                           citationCount: Option<nat>)

  /** One row of `paper_authors`. */
  datatype Link = Link(paperId: string, authorId: string)

  datatype Repo = Repo(papers: seq<Paper>, authors: map<string, Author>,
                       links: seq<Link>, queue: set<string>)

  const Empty: Repo := Repo([], map[], [], {})

  predicate HasPaper(papers: seq<Paper>, id: string) {
    exists i | 0 <= i < |papers| :: papers[i].paperId == id
  }

  /** The profile URLs of the known authors. */
  function QueueOf(authors: map<string, Author>): set<string> {
    set aid | aid in authors :: authors[aid].profileUrl
  }

  /** The author map is keyed by each record's own non-empty id, which is
      also the id of its profile URL. */
  ghost predicate KeyedById(authors: map<string, Author>) {
    forall aid :: aid in authors ==>
      authors[aid].authorId == aid && aid != [] && IdOf(authors[aid].profileUrl) == aid
  }

  /** Every link points at a known author and at a paper already stored. */
  ghost predicate LinksResolve(r: Repo) {
    forall i :: 0 <= i < |r.links| ==>
      r.links[i].authorId in r.authors && HasPaper(r.papers, r.links[i].paperId)
  }

  /** The invariant the card loop keeps: keys match records, links resolve,
      and the queue holds exactly one profile URL per known author. */
  ghost predicate Valid(r: Repo) {
    && KeyedById(r.authors)
    && LinksResolve(r)
    && r.queue == QueueOf(r.authors)
    && |r.queue| == |r.authors|
  }

  /** Every entry of `m` is still in `m'` with the same value. */
  ghost predicate Extends<K, V>(m: map<K, V>, m': map<K, V>) {
    forall k :: k in m ==> k in m' && m'[k] == m[k]
  }

  /** `r'` was reached from `r` by insertions only: both lists only grew at
      the end, no author record changed and no queued URL left. */
  ghost predicate Grows(r: Repo, r': Repo) {
    && |r.papers| <= |r'.papers| && r'.papers[..|r.papers|] == r.papers
    && |r.links| <= |r'.links| && r'.links[..|r.links|] == r.links
    && Extends(r.authors, r'.authors)
    && r.queue <= r'.queue
  }

  lemma GrowsTransitive(a: Repo, b: Repo, c: Repo)
    requires Grows(a, b) && Grows(b, c)
    ensures Grows(a, c)
  {
    assert c.papers[..|a.papers|] == c.papers[..|b.papers|][..|a.papers|];
    assert c.links[..|a.links|] == c.links[..|b.links|][..|a.links|];
  }

  /** Appending a paper: the list grows by that paper and nothing else. */
  function AddPaper(r: Repo, p: Paper): (s: Repo)
    ensures s.papers == r.papers + [p] && HasPaper(s.papers, p.paperId)
    ensures s.authors == r.authors && s.links == r.links && s.queue == r.queue
  {
    var s := r.(papers := r.papers + [p]);
    assert s.papers[|r.papers|].paperId == p.paperId;
    s
  }

  /** Appending a paper keeps every link resolving. */
  lemma AddPaperKeepsValid(r: Repo, p: Paper)
    requires Valid(r)
    ensures Valid(AddPaper(r, p))
  {
    var s := AddPaper(r, p);
    forall id | HasPaper(r.papers, id) ensures HasPaper(s.papers, id) {
      var i :| 0 <= i < |r.papers| && r.papers[i].paperId == id;
      assert s.papers[i] == r.papers[i];
    }
  }

  lemma QueueOfInsert(authors: map<string, Author>, aid: string, a: Author)
    requires aid !in authors
    ensures QueueOf(authors[aid := a]) == QueueOf(authors) + {a.profileUrl}
  {
    var m := authors[aid := a];
    forall u | u in QueueOf(m) ensures u in QueueOf(authors) + {a.profileUrl} {
      var k :| k in m && m[k].profileUrl == u;
      if k != aid {
        assert authors[k].profileUrl == u;
      }
    }
    forall u | u in QueueOf(authors) ensures u in QueueOf(m) {
      var k :| k in authors && authors[k].profileUrl == u;
      assert m[k].profileUrl == u;
    }
    assert m[aid].profileUrl == a.profileUrl;
  }

  /** A valid repository never queues a URL whose id is not a known author. */
  lemma QueuedIdsKnown(r: Repo)
    ensures Valid(r) ==> forall u :: u in r.queue ==> IdOf(u) in r.authors
  {
    if Valid(r) {
      forall u | u in r.queue ensures IdOf(u) in r.authors {
        var k :| k in r.authors && r.authors[k].profileUrl == u;
      }
    }
  }

  /** Records that the paper `paperId` lists the author `id` (lines
      253-266): a link is always appended, but the author record is created
      and its profile URL queued only when `id` is new, so the name and URL
      of the first sighting win. */
  function AddAuthorLink(r: Repo, paperId: string, id: string, name: string, url: string): (s: Repo)
    ensures s.papers == r.papers && s.links == r.links + [Link(paperId, id)]
  {
    var r1 := r.(links := r.links + [Link(paperId, id)]);
    if id in r.authors then r1
    else r1.(authors := r.authors[id := Author(id, name, url, None)], queue := r.queue + {url})
  }

  /** First sighting wins: an author seen before keeps its record and the
      queue is unchanged; a new author gets a record with no citation count
      and its URL is queued. Either way no existing record changes. */
  lemma AddAuthorLinkAuthors(r: Repo, paperId: string, id: string, name: string, url: string)
    ensures var s := AddAuthorLink(r, paperId, id, name, url);
      && Extends(r.authors, s.authors) && r.queue <= s.queue
      && s.authors.Keys == r.authors.Keys + {id}
      && (id in r.authors ==> s.authors == r.authors && s.queue == r.queue)
      && (id !in r.authors ==> s.authors[id] == Author(id, name, url, None) && s.queue == r.queue + {url})
  {
  }

  /** Adding a link only appends: the lists grow at the end and no existing
      author record or queued URL is touched. */
  lemma AddAuthorLinkGrows(r: Repo, paperId: string, id: string, name: string, url: string)
    ensures Grows(r, AddAuthorLink(r, paperId, id, name, url))
  {
    var s := AddAuthorLink(r, paperId, id, name, url);
    assert s.links[..|r.links|] == r.links;
  }

  /** Linking a stored paper to an author whose non-empty id is the id of
      its profile URL keeps the repository valid, and the queue changes
      exactly when the author id is new. */
  lemma AddAuthorLinkKeepsValid(r: Repo, paperId: string, id: string, name: string, url: string)
    requires Valid(r) && HasPaper(r.papers, paperId)
    requires id != [] && IdOf(url) == id
    ensures Valid(AddAuthorLink(r, paperId, id, name, url))
    ensures AddAuthorLink(r, paperId, id, name, url).queue != r.queue <==> id !in r.authors
  {
    var s := AddAuthorLink(r, paperId, id, name, url);
    if id !in r.authors {
      QueuedIdsKnown(r);
      NewAuthorQueued(r.authors, r.queue, id, Author(id, name, url, None));
    }
    AddAuthorLinkResolves(r, paperId, id, name, url);
  }

  /** Inserting a new author whose URL is keyed by its id extends the queue
      by exactly that one URL. */
  lemma NewAuthorQueued(authors: map<string, Author>, queue: set<string>, id: string, a: Author)
    requires KeyedById(authors) && queue == QueueOf(authors) && |queue| == |authors|
    requires id !in authors && a.authorId == id && id != [] && IdOf(a.profileUrl) == id
    requires forall u :: u in queue ==> IdOf(u) in authors
    ensures KeyedById(authors[id := a])
    ensures queue + {a.profileUrl} == QueueOf(authors[id := a])
    ensures |queue + {a.profileUrl}| == |authors[id := a]|
  {
    QueueOfInsert(authors, id, a);
    UnknownIdNotQueued(authors, queue, a.profileUrl);
    var m := authors[id := a];
    forall aid | aid in m
      ensures m[aid].authorId == aid && aid != [] && IdOf(m[aid].profileUrl) == aid
    {
      if aid != id {
        assert m[aid] == authors[aid];
      }
    }
  }

  /** A URL whose id is not a known author is not in the queue. */
  lemma UnknownIdNotQueued(authors: map<string, Author>, queue: set<string>, u: string)
    requires forall u :: u in queue ==> IdOf(u) in authors
    requires IdOf(u) !in authors
    ensures u !in queue
  {
  }

  /** The new link resolves, and the old ones still do. */
  lemma AddAuthorLinkResolves(r: Repo, paperId: string, id: string, name: string, url: string)
    requires LinksResolve(r) && HasPaper(r.papers, paperId)
    ensures LinksResolve(AddAuthorLink(r, paperId, id, name, url))
  {
    var s := AddAuthorLink(r, paperId, id, name, url);
    forall i | 0 <= i < |s.links|
      ensures s.links[i].authorId in s.authors && HasPaper(s.papers, s.links[i].paperId)
    {
      if i < |r.links| {
        assert s.links[i] == r.links[i];
      }
    }
  }

  /** An accepted author anchor, reduced to what the repository stores:
      the id, the stripped name and the absolute profile URL. */
  datatype Sighting = Sighting(authorId: string, name: string, profileUrl: string)

  /** A sighting whose id is non-empty and is the id of its profile URL. */
  predicate Identified(x: Sighting) {
    x.authorId != [] && IdOf(x.profileUrl) == x.authorId
  }

  /** Ids of the sightings. */
  function SightedIds(xs: seq<Sighting>): (ids: set<string>)
    ensures forall id :: id in ids <==> exists i :: 0 <= i < |xs| && xs[i].authorId == id
  {
    set i | 0 <= i < |xs| :: xs[i].authorId
  }

  /** One paper card reduced to its paper row and its accepted author
      anchors in byline order. */
  datatype CardRecord = CardRecord(paper: Paper, sightings: seq<Sighting>)

  /** The authors of one card, in byline order, each linked to `paperId`. */
  function AddSightings(r: Repo, paperId: string, xs: seq<Sighting>): (s: Repo)
    ensures s.papers == r.papers
    ensures |s.links| == |r.links| + |xs|
    decreases xs
  {
    if xs == [] then r
    else
      var r1 := AddAuthorLink(r, paperId, xs[0].authorId, xs[0].name, xs[0].profileUrl);
      AddSightings(r1, paperId, xs[1..])
  }

  /** A card's links are appended after the existing ones, one per sighting
      and in byline order, all naming the card's paper. */
  lemma {:induction false} AddSightingsLinks(r: Repo, paperId: string, xs: seq<Sighting>)
    ensures AddSightings(r, paperId, xs).links == r.links + seq(|xs|, i requires 0 <= i < |xs| => Link(paperId, xs[i].authorId))
    decreases xs
  {
    if xs != [] {
      var r1 := AddAuthorLink(r, paperId, xs[0].authorId, xs[0].name, xs[0].profileUrl);
      AddSightingsLinks(r1, paperId, xs[1..]);
      var tail := seq(|xs| - 1, i requires 0 <= i < |xs| - 1 => Link(paperId, xs[1..][i].authorId));
      var all := seq(|xs|, i requires 0 <= i < |xs| => Link(paperId, xs[i].authorId));
      assert all == [Link(paperId, xs[0].authorId)] + tail;
    }
  }

  /** Existing author records and queued URLs are never touched, and the
      author keys grow by exactly the sighted ids. */
  lemma {:induction false} AddSightingsAuthors(r: Repo, paperId: string, xs: seq<Sighting>)
    ensures Extends(r.authors, AddSightings(r, paperId, xs).authors)
    ensures r.queue <= AddSightings(r, paperId, xs).queue
    ensures AddSightings(r, paperId, xs).authors.Keys == r.authors.Keys + SightedIds(xs)
    decreases xs
  {
    if xs != [] {
      var r1 := AddAuthorLink(r, paperId, xs[0].authorId, xs[0].name, xs[0].profileUrl);
      AddSightingsAuthors(r1, paperId, xs[1..]);
      assert SightedIds(xs) == {xs[0].authorId} + SightedIds(xs[1..]) by {
        forall id | id in SightedIds(xs) ensures id in {xs[0].authorId} + SightedIds(xs[1..]) {
          var i :| 0 <= i < |xs| && xs[i].authorId == id;
          if i > 0 { assert xs[1..][i - 1] == xs[i]; }
        }
      }
    }
  }

  /** First sighting wins within a card: an author that is new after the
      card carries the name and URL of its first anchor on the card. */
  lemma {:induction false} FirstSightingWins(r: Repo, paperId: string, xs: seq<Sighting>, id: string)
    requires id in AddSightings(r, paperId, xs).authors && id !in r.authors
    ensures exists i :: (0 <= i < |xs| && xs[i].authorId == id
      && (forall j :: 0 <= j < i ==> xs[j].authorId != id)
      && AddSightings(r, paperId, xs).authors[id] == Author(id, xs[i].name, xs[i].profileUrl, None))
    decreases xs
  {
    var r1 := AddAuthorLink(r, paperId, xs[0].authorId, xs[0].name, xs[0].profileUrl);
    AddSightingsAuthors(r1, paperId, xs[1..]);
    if xs[0].authorId == id {
      assert AddSightings(r, paperId, xs).authors[id] == r1.authors[id];
    } else {
      FirstSightingWins(r1, paperId, xs[1..], id);
      var i :| 0 <= i < |xs[1..]| && xs[1..][i].authorId == id
        && (forall j :: 0 <= j < i ==> xs[1..][j].authorId != id)
        && AddSightings(r1, paperId, xs[1..]).authors[id] == Author(id, xs[1..][i].name, xs[1..][i].profileUrl, None);
      assert xs[i + 1] == xs[1..][i];
      forall j | 0 <= j < i + 1 ensures xs[j].authorId != id {
        if j > 0 { assert xs[j] == xs[1..][j - 1]; }
      }
    }
  }

  lemma {:induction false} AddSightingsKeepsValid(r: Repo, paperId: string, xs: seq<Sighting>)
    requires Valid(r) && HasPaper(r.papers, paperId)
    requires forall i :: 0 <= i < |xs| ==> Identified(xs[i])
    ensures Valid(AddSightings(r, paperId, xs))
    decreases xs
  {
    if xs != [] {
      AddAuthorLinkKeepsValid(r, paperId, xs[0].authorId, xs[0].name, xs[0].profileUrl);
      var r1 := AddAuthorLink(r, paperId, xs[0].authorId, xs[0].name, xs[0].profileUrl);
      assert forall i :: 0 <= i < |xs[1..]| ==> xs[1..][i] == xs[i + 1];
      AddSightingsKeepsValid(r1, paperId, xs[1..]);
    }
  }

  /** One card: its paper is appended, then its authors are linked to it. */
  function AddCard(r: Repo, c: CardRecord): (s: Repo)
    ensures s.papers == r.papers + [c.paper]
  {
    AddSightings(AddPaper(r, c.paper), c.paper.paperId, c.sightings)
  }

  /** A card only appends: every new link names the card's paper, and no
      existing author record or queued URL changes. */
  lemma AddCardGrows(r: Repo, c: CardRecord)
    ensures Grows(r, AddCard(r, c))
    ensures forall i :: |r.links| <= i < |AddCard(r, c).links| ==> AddCard(r, c).links[i].paperId == c.paper.paperId
  {
    var r1 := AddPaper(r, c.paper);
    AddSightingsLinks(r1, c.paper.paperId, c.sightings);
    AddSightingsAuthors(r1, c.paper.paperId, c.sightings);
    var s := AddCard(r, c);
    assert s.links[..|r.links|] == r.links;
    assert s.papers[..|r.papers|] == r.papers;
  }

  lemma AddCardKeepsValid(r: Repo, c: CardRecord)
    requires Valid(r)
    requires forall i :: 0 <= i < |c.sightings| ==> Identified(c.sightings[i])
    ensures Valid(AddCard(r, c))
  {
    AddPaperKeepsValid(r, c.paper);
    AddSightingsKeepsValid(AddPaper(r, c.paper), c.paper.paperId, c.sightings);
  }

  /** The cards of one page (main.py lines 139-141). */
  function AddCards(r: Repo, cs: seq<CardRecord>, limit: int): (s: Repo)
    ensures |r.papers| >= limit ==> s == r
    ensures |r.papers| <= |s.papers| <= |r.papers| + |cs|
    decreases cs
  {
    if cs == [] || |r.papers| >= limit then r
    else AddCards(AddCard(r, cs[0]), cs[1..], limit)
  }

  /** The paper list the card loop builds, the rest of the state aside. */
  function TakePapers(ps: seq<Paper>, cs: seq<CardRecord>, limit: int): seq<Paper>
    decreases cs
  {
    if cs == [] || |ps| >= limit then ps
    else TakePapers(ps + [cs[0].paper], cs[1..], limit)
  }

  lemma {:induction false} AddCardsTakesPapers(r: Repo, cs: seq<CardRecord>, limit: int)
    ensures AddCards(r, cs, limit).papers == TakePapers(r.papers, cs, limit)
    decreases cs
  {
    if cs != [] && |r.papers| < limit {
      AddCardsTakesPapers(AddCard(r, cs[0]), cs[1..], limit);
    }
  }

  lemma {:induction false} TakePapersSpec(ps: seq<Paper>, cs: seq<CardRecord>, limit: int)
    ensures var qs := TakePapers(ps, cs, limit);
      && |qs| == |ps| + Min(|cs|, Max(limit - |ps|, 0))
      && qs[..|ps|] == ps
      && forall j :: 0 <= j < |qs| - |ps| ==> qs[|ps| + j] == cs[j].paper
    decreases cs
  {
    if cs != [] && |ps| < limit {
      var ps1 := ps + [cs[0].paper];
      TakePapersSpec(ps1, cs[1..], limit);
      var qs := TakePapers(ps1, cs[1..], limit);
      assert TakePapers(ps, cs, limit) == qs;
      assert qs[..|ps|] == ps by {
        assert qs[..|ps|] == qs[..|ps1|][..|ps|];
      }
      assert qs[|ps|] == cs[0].paper by {
        assert qs[|ps|] == qs[..|ps1|][|ps|];
      }
      forall j | 1 <= j < |qs| - |ps| ensures qs[|ps| + j] == cs[j].paper {
        assert qs[|ps1| + (j - 1)] == cs[1..][j - 1].paper;
      }
    }
  }

  /** A card is taken only while fewer than `limit` papers are stored, so
      exactly `min(|cards|, limit - |papers|)` papers are appended, and they
      are the papers of the first cards, in order. */
  lemma AddCardsPapers(r: Repo, cs: seq<CardRecord>, limit: int)
    ensures var s := AddCards(r, cs, limit);
      && |s.papers| == |r.papers| + Min(|cs|, Max(limit - |r.papers|, 0))
      && s.papers[..|r.papers|] == r.papers
      && forall j :: 0 <= j < |s.papers| - |r.papers| ==> s.papers[|r.papers| + j] == cs[j].paper
  {
    AddCardsTakesPapers(r, cs, limit);
    TakePapersSpec(r.papers, cs, limit);
  }

  lemma {:induction false} AddCardsGrows(r: Repo, cs: seq<CardRecord>, limit: int)
    ensures Grows(r, AddCards(r, cs, limit))
    decreases cs
  {
    if cs != [] && |r.papers| < limit {
      AddCardGrows(r, cs[0]);
      AddCardsGrows(AddCard(r, cs[0]), cs[1..], limit);
      GrowsTransitive(r, AddCard(r, cs[0]), AddCards(r, cs, limit));
    }
  }

  lemma {:induction false} AddCardsKeepsValid(r: Repo, cs: seq<CardRecord>, limit: int)
    requires Valid(r)
    requires forall k, i :: 0 <= k < |cs| && 0 <= i < |cs[k].sightings| ==> Identified(cs[k].sightings[i])
    ensures Valid(AddCards(r, cs, limit))
    decreases cs
  {
    if cs != [] && |r.papers| < limit {
      AddCardKeepsValid(r, cs[0]);
      assert forall k :: 0 <= k < |cs[1..]| ==> cs[1..][k] == cs[k + 1];
      AddCardsKeepsValid(AddCard(r, cs[0]), cs[1..], limit);
    }
  }

  function Min(a: int, b: int): int { if a <= b then a else b }
  function Max(a: int, b: int): int { if a <= b then b else a }
}

=== FILE: scraper.dfy ===
/** The three phases of `run` (main.py lines 73-85): the search pages are
    scraped, every queued author profile is visited, and the tables are
    exported. The profile pages are the function `profile` from a profile
    URL to what that page offered, and `order` is the order in which Python
    enumerates the queue set. */
module Scraper {
  import opened Wrappers
  import opened Text
  import opened Hrefs
  import opened Repository
  import opened Search
  import opened Profiles
  import opened Export

  /** The state after the profile phase: the search result with every
      author record carrying the count of its visit. */
  function Visited(r: Repo, order: seq<string>, cite: string -> Option<nat>): (s: Repo)
    ensures s.papers == r.papers && s.links == r.links && s.queue == r.queue
    ensures s.authors.Keys == r.authors.Keys
  {
    r.(authors := VisitProfiles(r.authors, order, cite))
  }

  /** The value each visit stores, read off the profile page's view. */
  function Cite(profile: string -> ProfileView): string -> Option<nat> {
    u => ProfileCitation(profile(u))
  }

  /** The corrected run: the author ids are derived as the search phase
      derives them. When no browser call raises outside the caught timeouts
      the tables are written; with no papers the paper table is empty (and
      the summary after it divides by zero). */
  function Run(limit: int, view: nat -> PageView, titleHash: string -> string,
               order: seq<string>, profile: string -> ProfileView): (t: Tables)
    ensures t.papers == [] <==> ScrapeSearch(limit, view, titleHash).repo.papers == []
    ensures t.authors.Keys == ScrapeSearch(limit, view, titleHash).repo.authors.Keys
  {
    ExportTables(Visited(ScrapeSearch(limit, view, titleHash).repo, order, Cite(profile)))
  }

  /** The whole run as written, when no browser call raises outside the
      caught timeouts: the profile phase aborts on the first queued URL whose
      last path segment is not an author id, and nothing is exported then;
      otherwise the tables are written as in `Run`. */
  function RunAsWritten(limit: int, view: nat -> PageView, titleHash: string -> string,
                        order: seq<string>, profile: string -> ProfileView): (t: Result<Tables, string>)
    ensures t.Failure? ==> t.error !in ScrapeSearch(limit, view, titleHash).repo.authors
    ensures t.Success? ==>
      (t.value.papers == [] <==> ScrapeSearch(limit, view, titleHash).repo.papers == [])
  {
    var r := ScrapeSearch(limit, view, titleHash).repo;
    match VisitProfilesAsWritten(r.authors, order, Cite(profile))
    case Failure(id) => Failure(id)
    case Success(m) => Success(ExportTables(r.(authors := m)))
  }

  /** Visiting the queue keeps the repository valid and sets every count. */
  lemma VisitedValid(r: Repo, order: seq<string>, cite: string -> Option<nat>)
    requires Valid(r)
    requires forall u :: u in r.queue <==> u in order
    ensures Valid(Visited(r, order, cite))
    ensures forall k :: k in r.authors ==>
      Visited(r, order, cite).authors[k] == r.authors[k].(citationCount := cite(r.authors[k].profileUrl))
  {
    var m := VisitProfiles(r.authors, order, cite);
    VisitAllQueued(r, order, cite);
    VisitCountsOnly(r.authors, order, IdOf, cite);
    SameButCountsKeeps(r.authors, m);
    assert |m| == |m.Keys| == |r.authors.Keys| == |r.authors|;
  }

  /** A run exports at most `max(limit, 0)` papers with distinct ids,
      every author found with the count read from its own profile page,
      and link rows that all name an exported author and an exported
      paper. */
  lemma RunSound(limit: int, view: nat -> PageView, titleHash: string -> string,
                 order: seq<string>, profile: string -> ProfileView)
    requires forall u :: u in ScrapeSearch(limit, view, titleHash).repo.queue <==> u in order
    ensures var r := ScrapeSearch(limit, view, titleHash).repo;
      var t := Run(limit, view, titleHash, order, profile);
      && |t.papers| <= Max(limit, 0)
      && (forall i, j :: 0 <= i < j < |t.papers| ==> t.papers[i].paperId != t.papers[j].paperId)
      && t.authors.Keys == r.authors.Keys
      && (forall k :: k in r.authors ==>
            t.authors[k] == r.authors[k].(citationCount := ProfileCitation(profile(r.authors[k].profileUrl))))
      && (forall i :: 0 <= i < |t.links| ==>
            t.links[i].authorId in t.authors && HasPaper(t.papers, t.links[i].paperId))
  {
    var r := ScrapeSearch(limit, view, titleHash).repo;
    var cite := Cite(profile);
    ScrapeSearchSound(limit, view, titleHash);
    VisitedValid(r, order, cite);
    var s := Visited(r, order, cite);
    ExportResolves(s);
  }

  /** A queued profile URL that ends in a slash makes the run as written
      abort with `KeyError('')` before anything is exported, however many
      papers were found. */
  lemma RunAsWrittenAborts(limit: int, view: nat -> PageView, titleHash: string -> string,
                           order: seq<string>, profile: string -> ProfileView, w: nat)
    requires forall u :: u in ScrapeSearch(limit, view, titleHash).repo.queue <==> u in order
    requires w < |order| && EndsWithSlash(order[w])
    ensures RunAsWritten(limit, view, titleHash, order, profile) == Failure("")
  {
    var r := ScrapeSearch(limit, view, titleHash).repo;
    ScrapeSearchSound(limit, view, titleHash);
    AsWrittenAborts(r.authors, order, Cite(profile), w);
  }

  /** Without trailing slashes on the queued URLs the run as written is
      the corrected run. */
  lemma RunAsWrittenAgrees(limit: int, view: nat -> PageView, titleHash: string -> string,
                           order: seq<string>, profile: string -> ProfileView)
    requires forall u :: u in ScrapeSearch(limit, view, titleHash).repo.queue <==> u in order
    requires forall i :: 0 <= i < |order| ==> !EndsWithSlash(order[i])
    ensures RunAsWritten(limit, view, titleHash, order, profile) == Success(Run(limit, view, titleHash, order, profile))
  {
    var r := ScrapeSearch(limit, view, titleHash).repo;
    ScrapeSearchSound(limit, view, titleHash);
    AsWrittenAgrees(r.authors, order, Cite(profile));
  }
}

=== FILE: search.dfy ===
/** The search-results loop (`_scrape_search_results`, main.py lines
    87-307). The browser is replaced by abstract inputs: for every card the
    text or attribute each selector of a fallback list found, and for every
    page whether results appeared, the card lists of the card selectors and
    the next-page buttons of the pagination selectors. */
module Search {
  import opened Wrappers
  import opened Text
  import opened Hrefs
  import opened Numbers
  import opened Fallback
  import opened Repository

  /** One author anchor of a card: its inner text and its `href`, if any. */
  datatype AuthorAnchor = AuthorAnchor(text: string, href: Option<string>)

  /** What the selectors found on one result card:
      - `titles`: inner text of the first match of each title selector (lines 146-153);
      - `hrefs`: `href` of the first match of each link selector, None when the
        selector matched nothing or the element has no `href` (lines 160-181);
      - `pubdates`: inner text of the publication-date element (lines 192-197);
      - `citations`: inner text of the first match of each citation selector (lines 200-211);
      - `authorLists`: all matches of each author selector (lines 223-234). */
  datatype Card = Card(titles: seq<Option<string>>, hrefs: seq<Option<string>>,
                       pubdates: Option<string>, citations: seq<Option<string>>,
                       authorLists: seq<seq<AuthorAnchor>>)

  /** A next-page control: `is_enabled()` and its `disabled` attribute. */
  datatype NextButton = NextButton(enabled: bool, disabledAttr: Option<string>)

  /** One search page as the loop sees it: whether either results selector
      appeared before its timeout (lines 103-117), the matches of each card
      selector (lines 121-133) and of each next-button selector (lines 273-283). */
  datatype PageView = PageView(resultsAppeared: bool, cardLists: seq<seq<Card>>,
                               nextButtons: seq<Option<NextButton>>)

  /** Why the page loop stopped. */
  datatype StopReason =
    | LimitReached     // enough papers (loop condition, line 98)
    | ResultsTimeout   // no results selector appeared (line 117)
    | NoCards          // no card selector matched (line 137)
    | NoNextButton     // no next-page control (line 302)
    | NextDisabled     // the control is disabled (line 299)
    | PageLimit        // the page ceiling (line 307)

  /** The outcome of the page loop: the collected state, the number of
      pages processed (the final `page_count`) and why it stopped. */
  datatype Crawl = Crawl(repo: Repo, pages: nat, reason: StopReason)

  const UnknownTitle: string := "Unknown Title"
  const NoUrl: string := "N/A"
  /** The loop stops once its page counter exceeds this (line 305). */
  const PageCeiling: nat := 20

  /** The title: the stripped text of the first matching title selector. */
  function CardTitle(card: Card): (t: string)
    ensures FirstSome(card.titles).None? ==> t == UnknownTitle
    ensures FirstSome(card.titles).Some? ==> t == Strip(FirstSome(card.titles).value)
  {
    match FirstSome(card.titles)
    case None => UnknownTitle
    case Some(t) => Strip(t)
  }

  predicate IsPaperLink(o: Option<string>) {
    o.Some? && IsPaperHref(o.value)
  }

  /** The link loop moves on to the next selector when the match has no
      `/paper/` href, so the href used is the first acceptable one. */
  function PaperHref(hrefs: seq<Option<string>>): (r: Option<string>)
    ensures r.None? <==> forall k :: 0 <= k < |hrefs| ==> !IsPaperLink(hrefs[k])
    ensures r.Some? ==> IsPaperHref(r.value) && exists k :: (0 <= k < |hrefs| && hrefs[k] == r
      && forall j :: 0 <= j < k ==> !IsPaperLink(hrefs[j]))
  {
    if hrefs == [] then None
    else if IsPaperLink(hrefs[0]) then hrefs[0]
    else
      var r := PaperHref(hrefs[1..]);
      assert forall k :: 1 <= k < |hrefs| ==> hrefs[k] == hrefs[1..][k - 1];
      r
  }

  /** The paper row built from a card (lines 143-220). A card with a
      `/paper/` link gets that link's non-empty, slash-free id and its
      absolute URL; otherwise the id is the hash of the title and the URL is
      "N/A". The year is the leftmost year token, in 1900-2099, and the
      citation count is read from the first citation element found. */
  function ExtractPaper(card: Card, titleHash: string -> string): (p: Paper)
    ensures p.title == CardTitle(card)
    ensures PaperHref(card.hrefs).Some? ==>
      var h := PaperHref(card.hrefs).value;
      p.paperId == IdOf(h) && p.paperId != [] && '/' !in p.paperId
      && p.url == Absolute(h) && StartsWith(p.url, "http")
    ensures PaperHref(card.hrefs).None? ==> p.paperId == titleHash(p.title) && p.url == NoUrl
    ensures p.year == if card.pubdates.Some? then YearOf(card.pubdates.value) else None
    ensures p.year.Some? ==> 1900 <= p.year.value <= 2099
    ensures p.citationCount.Some? ==> FirstSome(card.citations).Some?
    ensures FirstSome(card.citations).Some? ==> p.citationCount == ParseCount(FirstSome(card.citations).value)
  {
    var title := CardTitle(card);
    var href := PaperHref(card.hrefs);
    var derived := if href.Some? then (AcceptedHrefId(href.value, 0); IdOf(href.value)) else "";
    var year := if card.pubdates.Some? then YearOf(card.pubdates.value) else None;
    var citations := match FirstSome(card.citations)
      case None => None
      case Some(t) => ParseCount(t);
    Paper(if derived == "" then titleHash(title) else derived,
          title,
          if href.Some? then Absolute(href.value) else NoUrl,
          year,
          citations)
  }

  predicate IsAuthorLink(a: AuthorAnchor) {
    a.href.Some? && IsAuthorHref(a.href.value)
  }

  /** An accepted anchor as the repository records it (lines 236-250):
      the id of its href, its stripped name and its absolute URL. */
  function SightingOf(a: AuthorAnchor): (x: Sighting)
    requires IsAuthorLink(a)
    ensures Identified(x) && '/' !in x.authorId
    ensures x.authorId == IdOf(a.href.value) && x.name == Strip(a.text)
    ensures x.profileUrl == Absolute(a.href.value) && StartsWith(x.profileUrl, "http")
  {
    var h := a.href.value;
    AcceptedHrefId(h, 0);
    IdOfAbsolute(h);
    Sighting(IdOf(h), Strip(a.text), Absolute(h))
  }

  /** The accepted anchors of a byline, in order; the others (no href, or
      no `/author/` in it) are skipped (line 241). */
  function Sightings(anchors: seq<AuthorAnchor>): (xs: seq<Sighting>)
    ensures |xs| <= |anchors|
    ensures forall i :: 0 <= i < |xs| ==> Identified(xs[i])
    decreases anchors
  {
    if anchors == [] then []
    else
      var rest := Sightings(anchors[1..]);
      if IsAuthorLink(anchors[0]) then
        var xs := [SightingOf(anchors[0])] + rest;
        assert forall i :: 0 < i < |xs| ==> xs[i] == rest[i - 1];
        xs
      else rest
  }

  /** Bylines are read anchor by anchor: the sightings of two consecutive
      stretches of anchors are those of each, one after the other. */
  lemma {:induction false} SightingsAppend(a: seq<AuthorAnchor>, b: seq<AuthorAnchor>)
    ensures Sightings(a + b) == Sightings(a) + Sightings(b)
    decreases a
  {
    if a == [] {
      assert a + b == b;
    } else {
      assert (a + b)[0] == a[0] && (a + b)[1..] == a[1..] + b;
      SightingsAppend(a[1..], b);
      if IsAuthorLink(a[0]) {
        var x := [SightingOf(a[0])];
        assert x + (Sightings(a[1..]) + Sightings(b)) == (x + Sightings(a[1..])) + Sightings(b);
      }
    }
  }

  /** Anchors that are all accepted give one sighting each, in order. */
  lemma {:induction false} SightingsOfAccepted(anchors: seq<AuthorAnchor>)
    requires forall i :: 0 <= i < |anchors| ==> IsAuthorLink(anchors[i])
    ensures |Sightings(anchors)| == |anchors|
    ensures forall i :: 0 <= i < |anchors| ==> Sightings(anchors)[i] == SightingOf(anchors[i])
    decreases anchors
  {
    if anchors != [] {
      var tail := anchors[1..];
      assert forall i :: 0 <= i < |tail| ==> tail[i] == anchors[i + 1];
      SightingsOfAccepted(tail);
      var xs := Sightings(anchors);
      assert xs == [SightingOf(anchors[0])] + Sightings(tail);
      forall i | 0 <= i < |anchors| ensures xs[i] == SightingOf(anchors[i]) {
        if i > 0 {
          assert xs[i] == Sightings(tail)[i - 1];
        }
      }
    }
  }

  /** Anchors none of which is accepted give no sighting. */
  lemma {:induction false} SightingsOfRejected(anchors: seq<AuthorAnchor>)
    requires forall i :: 0 <= i < |anchors| ==> !IsAuthorLink(anchors[i])
    ensures Sightings(anchors) == []
    decreases anchors
  {
    if anchors != [] {
      var tail := anchors[1..];
      assert forall i :: 0 <= i < |tail| ==> tail[i] == anchors[i + 1];
      SightingsOfRejected(tail);
    }
  }

  /** One card reduced to its paper row and the sightings of the first
      author selector that matched (lines 143-266). */
  function ReadCard(card: Card, titleHash: string -> string): (c: CardRecord)
    ensures c.paper == ExtractPaper(card, titleHash)
    ensures c.sightings == Sightings(FirstNonEmpty(card.authorLists))
    ensures forall i :: 0 <= i < |c.sightings| ==> Identified(c.sightings[i])
  {
    CardRecord(ExtractPaper(card, titleHash), Sightings(FirstNonEmpty(card.authorLists)))
  }

  /** Every card of a page, read in order. */
  function ReadCards(cards: seq<Card>, titleHash: string -> string): (cs: seq<CardRecord>)
    ensures |cs| == |cards|
    ensures forall k :: 0 <= k < |cs| ==> cs[k] == ReadCard(cards[k], titleHash)
  {
    seq(|cards|, k requires 0 <= k < |cards| => ReadCard(cards[k], titleHash))
  }

  /** How a page's cards enter the repository: the card loop of one page. */
  type Ingest = (Repo, seq<Card>) -> Repo

  /** The card loop of lines 139-266: read every card, then take them in
      order while fewer than `limit` papers are stored. */
  function PageIngest(limit: int, titleHash: string -> string): Ingest {
    (r: Repo, cards: seq<Card>) => AddCards(r, ReadCards(cards, titleHash), limit)
  }

  /** What the page loop relies on from the card loop: it stays within the
      limit, only appends, and keeps the repository valid. */
  ghost predicate IngestSound(ingest: Ingest, limit: int) {
    forall r: Repo, cards: seq<Card> ::
      && |ingest(r, cards).papers| <= Max(|r.papers|, limit)
      && Grows(r, ingest(r, cards))
      && (Valid(r) ==> Valid(ingest(r, cards)))
  }

  /** The card loop stores only the papers of the first cards, in order,
      and at most as many as the limit leaves room for. */
  lemma PagePapers(r: Repo, cards: seq<Card>, limit: int, titleHash: string -> string)
    ensures var s := PageIngest(limit, titleHash)(r, cards);
      && |s.papers| == |r.papers| + Min(|cards|, Max(limit - |r.papers|, 0))
      && s.papers[..|r.papers|] == r.papers
      && forall j :: 0 <= j < |s.papers| - |r.papers| ==>
           s.papers[|r.papers| + j] == ExtractPaper(cards[j], titleHash)
  {
    AddCardsPapers(r, ReadCards(cards, titleHash), limit);
  }

  lemma PageIngestSound(limit: int, titleHash: string -> string)
    ensures IngestSound(PageIngest(limit, titleHash), limit)
  {
    var ingest := PageIngest(limit, titleHash);
    forall r: Repo, cards: seq<Card>
      ensures && |ingest(r, cards).papers| <= Max(|r.papers|, limit)
              && Grows(r, ingest(r, cards))
              && (Valid(r) ==> Valid(ingest(r, cards)))
    {
      var cs := ReadCards(cards, titleHash);
      AddCardsPapers(r, cs, limit);
      AddCardsGrows(r, cs, limit);
      if Valid(r) {
        AddCardsKeepsValid(r, cs, limit);
      }
    }
  }

  function NextControl(v: PageView): Option<NextButton> {
    FirstSome(v.nextButtons)
  }

  /** `is_enabled and not is_disabled`: an empty `disabled` attribute is
      falsy in Python and does not block the click. */
  predicate Clickable(b: NextButton) {
    b.enabled && (b.disabledAttr.None? || b.disabledAttr.value == "")
  }

  /** A page after which the loop goes on to the next page. */
  predicate Continues(v: PageView) {
    && v.resultsAppeared
    && FirstNonEmpty(v.cardLists) != []
    && NextControl(v).Some? && Clickable(NextControl(v).value)
  }

  /** One pass of the page loop: it either ends the loop or hands the
      state the card loop left to the next page. */
  datatype Step = Stop(crawl: Crawl) | Go(repo: Repo)

  /** The pass over the page with 0-based index `k` (lines 98-307). The
      pagination step is skipped once the limit is reached, and the ceiling
      test follows it, so a page that reaches the limit is followed by the
      loop test only when the ceiling has not been passed. */
  function PageStep(r: Repo, k: nat, limit: int, view: nat -> PageView,
                    ingest: Ingest): (s: Step)
    ensures s.Stop? ==> k <= s.crawl.pages <= k + 1
    ensures s.Go? ==> k + 1 <= PageCeiling
  {
    if |r.papers| >= limit then Stop(Crawl(r, k, LimitReached))
    else
      var v := view(k);
      if !v.resultsAppeared then Stop(Crawl(r, k + 1, ResultsTimeout))
      else
        var cards := FirstNonEmpty(v.cardLists);
        if cards == [] then Stop(Crawl(r, k + 1, NoCards))
        else
          var r1 := ingest(r, cards);
          var next := NextControl(v);
          if |r1.papers| < limit && next.None? then Stop(Crawl(r1, k + 1, NoNextButton))
          else if |r1.papers| < limit && !Clickable(next.value) then Stop(Crawl(r1, k + 1, NextDisabled))
          else if k + 1 > PageCeiling then Stop(Crawl(r1, k + 1, PageLimit))
          else Go(r1)
  }

  /** The page loop once `k` pages have been processed; `view(j)` is what
      the browser shows on the page with 0-based index `j`. */
  function CrawlFrom(r: Repo, k: nat, limit: int, view: nat -> PageView,
                     ingest: Ingest): (c: Crawl)
    requires k <= PageCeiling
    ensures k <= c.pages <= PageCeiling + 1
    decreases PageCeiling - k
  {
    match PageStep(r, k, limit, view, ingest)
    case Stop(c) => c
    case Go(r1) => CrawlFrom(r1, k + 1, limit, view, ingest)
  }

  /** Why a crawl stopped is read off the last page it processed: the
      limit or the ceiling, or that page had no results, no cards, no
      next-page control or a disabled one. */
  ghost predicate StopExplained(c: Crawl, limit: int, view: nat -> PageView) {
    && (c.reason == LimitReached ==> |c.repo.papers| >= limit)
    && (c.reason == PageLimit ==> c.pages == PageCeiling + 1)
    && (c.reason != LimitReached && c.reason != PageLimit ==> |c.repo.papers| < limit)
    && (c.reason == ResultsTimeout ==> c.pages > 0 && !view(c.pages - 1).resultsAppeared)
    && (c.reason == NoCards ==> c.pages > 0 && FirstNonEmpty(view(c.pages - 1).cardLists) == [])
    && (c.reason == NoNextButton ==> c.pages > 0 && NextControl(view(c.pages - 1)).None?)
    && (c.reason == NextDisabled ==> (c.pages > 0 &&
          NextControl(view(c.pages - 1)).Some? && !Clickable(NextControl(view(c.pages - 1)).value)))
  }

  /** The state after page `k` is the state before it, or what the card
      loop made of that page's cards when the limit was not yet met. */
  ghost predicate Ingested(r: Repo, k: nat, limit: int, view: nat -> PageView, ingest: Ingest, r': Repo) {
    r' == r || (|r.papers| < limit && r' == ingest(r, FirstNonEmpty(view(k).cardLists)))
  }

  /** A pass goes on only from a page with results and cards while the
      limit was not met, and past a page still below the limit only over a
      clickable next-page control. */
  lemma PageStepGo(r: Repo, k: nat, limit: int, view: nat -> PageView, ingest: Ingest)
    ensures var s := PageStep(r, k, limit, view, ingest);
      s.Go? ==> && |r.papers| < limit && view(k).resultsAppeared
                && FirstNonEmpty(view(k).cardLists) != []
                && s.repo == ingest(r, FirstNonEmpty(view(k).cardLists))
                && (|s.repo.papers| < limit ==> Continues(view(k)))
  {
  }

  /** A pass that ends explains why, and it processes no page exactly when
      the limit is already met. */
  lemma PageStepStop(r: Repo, k: nat, limit: int, view: nat -> PageView, ingest: Ingest)
    requires k <= PageCeiling
    ensures var s := PageStep(r, k, limit, view, ingest);
      s.Stop? ==> && StopExplained(s.crawl, limit, view)
                  && (s.crawl.pages == k <==> |r.papers| >= limit)
                  && (s.crawl.pages == k ==> s.crawl.repo == r)
                  && Ingested(r, k, limit, view, ingest, s.crawl.repo)
  {
  }

  /** The loop never stores more papers than the limit allows, and it only
      ever appends to what it started with. */
  lemma {:induction false} CrawlBounded(r: Repo, k: nat, limit: int, view: nat -> PageView,
                                        ingest: Ingest)
    requires k <= PageCeiling && IngestSound(ingest, limit)
    ensures |CrawlFrom(r, k, limit, view, ingest).repo.papers| <= Max(|r.papers|, limit)
    ensures Grows(r, CrawlFrom(r, k, limit, view, ingest).repo)
    decreases PageCeiling - k
  {
    var s := PageStep(r, k, limit, view, ingest);
    var r1 := ingest(r, FirstNonEmpty(view(k).cardLists));
    IngestBounds(ingest, limit, r, FirstNonEmpty(view(k).cardLists));
    if s.Go? {
      PageStepGo(r, k, limit, view, ingest);
      assert s.repo == r1 && |r.papers| < limit;
      var c1 := CrawlFrom(r1, k + 1, limit, view, ingest);
      CrawlBounded(r1, k + 1, limit, view, ingest);
      GrowsTransitive(r, r1, c1.repo);
      assert CrawlFrom(r, k, limit, view, ingest) == c1;
    } else {
      PageStepStop(r, k, limit, view, ingest);
      assert CrawlFrom(r, k, limit, view, ingest) == s.crawl;
      assert s.crawl.repo == r || (|r.papers| < limit && s.crawl.repo == r1);
    }
  }

  /** What `IngestSound` promises for one call of the card loop. */
  lemma IngestBounds(ingest: Ingest, limit: int, r: Repo, cards: seq<Card>)
    requires IngestSound(ingest, limit)
    ensures |ingest(r, cards).papers| <= Max(|r.papers|, limit)
    ensures Grows(r, ingest(r, cards))
  {
  }

  lemma IngestValid(ingest: Ingest, limit: int, r: Repo, cards: seq<Card>)
    requires IngestSound(ingest, limit) && Valid(r)
    ensures Valid(ingest(r, cards))
  {
  }

  /** The loop processes no page exactly when the limit is met from the
      start, and then it leaves the state alone. */
  lemma CrawlStarts(r: Repo, k: nat, limit: int, view: nat -> PageView, ingest: Ingest)
    requires k <= PageCeiling
    ensures CrawlFrom(r, k, limit, view, ingest).pages == k <==> |r.papers| >= limit
    ensures CrawlFrom(r, k, limit, view, ingest).pages == k ==> CrawlFrom(r, k, limit, view, ingest).repo == r
  {
    var s := PageStep(r, k, limit, view, ingest);
    if s.Go? {
      PageStepGo(r, k, limit, view, ingest);
      assert CrawlFrom(r, k, limit, view, ingest) == CrawlFrom(s.repo, k + 1, limit, view, ingest);
    } else {
      PageStepStop(r, k, limit, view, ingest);
      assert CrawlFrom(r, k, limit, view, ingest) == s.crawl;
    }
  }

  lemma {:induction false} CrawlExplained(r: Repo, k: nat, limit: int, view: nat -> PageView,
                                          ingest: Ingest)
    requires k <= PageCeiling
    ensures StopExplained(CrawlFrom(r, k, limit, view, ingest), limit, view)
    decreases PageCeiling - k
  {
    var s := PageStep(r, k, limit, view, ingest);
    if s.Go? {
      CrawlExplained(s.repo, k + 1, limit, view, ingest);
      assert CrawlFrom(r, k, limit, view, ingest) == CrawlFrom(s.repo, k + 1, limit, view, ingest);
    } else {
      PageStepStop(r, k, limit, view, ingest);
      assert CrawlFrom(r, k, limit, view, ingest) == s.crawl;
    }
  }

  /** The loop stops for a reason the last page explains, and processes no
      page exactly when the limit is met from the start. */
  lemma CrawlStops(r: Repo, k: nat, limit: int, view: nat -> PageView, ingest: Ingest)
    requires k <= PageCeiling
    ensures CrawlFrom(r, k, limit, view, ingest).pages == k <==> |r.papers| >= limit
    ensures CrawlFrom(r, k, limit, view, ingest).pages == k ==> CrawlFrom(r, k, limit, view, ingest).repo == r
    ensures StopExplained(CrawlFrom(r, k, limit, view, ingest), limit, view)
  {
    CrawlStarts(r, k, limit, view, ingest);
    CrawlExplained(r, k, limit, view, ingest);
  }

  /** Every page in `[k, pages - 1)` let the loop go on. */
  ghost predicate ContinuedThrough(view: nat -> PageView, k: nat, pages: nat) {
    forall j :: k <= j < pages - 1 ==> Continues(view(j))
  }

  /** The loop went past every page before the last one only because that
      page showed results and cards and had a clickable next-page control. */
  lemma {:induction false} CrawlContinues(r: Repo, k: nat, limit: int, view: nat -> PageView,
                                          ingest: Ingest)
    requires k <= PageCeiling
    ensures ContinuedThrough(view, k, CrawlFrom(r, k, limit, view, ingest).pages)
    decreases PageCeiling - k
  {
    var s := PageStep(r, k, limit, view, ingest);
    if s.Stop? {
      assert CrawlFrom(r, k, limit, view, ingest) == s.crawl;
    } else {
      PageStepGo(r, k, limit, view, ingest);
      var c1 := CrawlFrom(s.repo, k + 1, limit, view, ingest);
      assert CrawlFrom(r, k, limit, view, ingest) == c1;
      CrawlContinues(s.repo, k + 1, limit, view, ingest);
      CrawlStarts(s.repo, k + 1, limit, view, ingest);
      ContinuedFrom(view, k, c1.pages);
    }
  }

  lemma ContinuedFrom(view: nat -> PageView, k: nat, pages: nat)
    requires pages > k + 1 ==> Continues(view(k))
    requires ContinuedThrough(view, k + 1, pages)
    ensures ContinuedThrough(view, k, pages)
  {
  }

  /** The loop keeps the repository invariant: every sighting it records
      is keyed by the id of its own profile URL. */
  lemma {:induction false} CrawlKeepsValid(r: Repo, k: nat, limit: int, view: nat -> PageView,
                                           ingest: Ingest)
    requires k <= PageCeiling && Valid(r) && IngestSound(ingest, limit)
    ensures Valid(CrawlFrom(r, k, limit, view, ingest).repo)
    decreases PageCeiling - k
  {
    PageStepGo(r, k, limit, view, ingest);
    PageStepStop(r, k, limit, view, ingest);
    var s := PageStep(r, k, limit, view, ingest);
    var r1 := ingest(r, FirstNonEmpty(view(k).cardLists));
    IngestValid(ingest, limit, r, FirstNonEmpty(view(k).cardLists));
    if s.Go? {
      assert s.repo == r1;
      CrawlKeepsValid(r1, k + 1, limit, view, ingest);
      assert CrawlFrom(r, k, limit, view, ingest) == CrawlFrom(r1, k + 1, limit, view, ingest);
    } else {
      assert CrawlFrom(r, k, limit, view, ingest) == s.crawl;
      assert s.crawl.repo == r || s.crawl.repo == r1;
    }
  }

  /** The whole search phase, from the empty repository. */
  function ScrapeSearch(limit: int, view: nat -> PageView, titleHash: string -> string): (c: Crawl)
    ensures c.pages <= PageCeiling + 1
  {
    CrawlFrom(Empty, 0, limit, view, PageIngest(limit, titleHash))
  }

  /** After the search phase at most `max(limit, 0)` papers are stored, at
      most 21 pages were processed, and the repository is valid. */
  lemma ScrapeSearchSound(limit: int, view: nat -> PageView, titleHash: string -> string)
    ensures var c := ScrapeSearch(limit, view, titleHash);
      && |c.repo.papers| <= Max(limit, 0)
      && c.pages <= PageCeiling + 1
      && Valid(c.repo)
  {
    PageIngestSound(limit, titleHash);
    CrawlBounded(Empty, 0, limit, view, PageIngest(limit, titleHash));
    assert Valid(Empty);
    CrawlKeepsValid(Empty, 0, limit, view, PageIngest(limit, titleHash));
  }
}

=== FILE: text.dfy ===
/** The few Python string operations the scraper relies on, written out
    over `seq<char>`: `strip()`, `rstrip('/')`, `split('/')[-1]`,
    `startswith` and the `in` substring test. */
module Text {

  /** Python's `str.isspace()`: the characters `strip()` removes. */
  predicate IsSpace(c: char) {
    ('\t' <= c <= '\r') || ('\U{1c}' <= c <= '\U{1f}') || c == ' '
    || c == '\U{85}' || c == '\U{a0}' || c == '\U{1680}'
    || ('\U{2000}' <= c <= '\U{200a}') || c == '\U{2028}' || c == '\U{2029}'
    || c == '\U{202f}' || c == '\U{205f}' || c == '\U{3000}'
  }

  predicate StartsWith(s: string, prefix: string) {
    |prefix| <= |s| && s[..|prefix|] == prefix
  }

  /** `s.endswith('/')`, by its last character. */
  predicate EndsWithSlash(s: string) {
    s != [] && s[|s| - 1] == '/'
  }

  /** `t` occurs in `s` starting at index `i`. */
  predicate OccursAt(s: string, t: string, i: int) {
    0 <= i <= |s| - |t| && s[i..i + |t|] == t
  }

  /** Python's `t in s` for strings. */
  predicate Contains(s: string, t: string) {
    exists i | 0 <= i <= |s| - |t| :: OccursAt(s, t, i)
  }

  /** Drops leading whitespace. */
  function StripLeft(s: string): (r: string)
    ensures |r| <= |s| && r == s[|s| - |r|..]
    ensures forall k :: 0 <= k < |s| - |r| ==> IsSpace(s[k])
    ensures r == [] || !IsSpace(r[0])
  {
    if s == [] || !IsSpace(s[0]) then s else StripLeft(s[1..])
  }

  /** Drops trailing whitespace. */
  function StripRight(s: string): (r: string)
    ensures |r| <= |s| && r == s[..|r|]
    ensures forall k :: |r| <= k < |s| ==> IsSpace(s[k])
    ensures r == [] || !IsSpace(r[|r| - 1])
  {
    if s == [] || !IsSpace(s[|s| - 1]) then s else StripRight(s[..|s| - 1])
  }

  /** `s[a..b]` is what is left of `s` after cutting whitespace only. */
  predicate TrimmedTo(s: string, a: int, b: int) {
    && 0 <= a <= b <= |s|
    && (forall k :: 0 <= k < a ==> IsSpace(s[k]))
    && (forall k :: b <= k < |s| ==> IsSpace(s[k]))
  }

  /** Python's `s.strip()`: the result is the slice of `s` left after
      removing all leading and trailing whitespace. */
  function Strip(s: string): (r: string)
    ensures exists a, b :: TrimmedTo(s, a, b) && r == s[a..b]
    ensures r == [] || (!IsSpace(r[0]) && !IsSpace(r[|r| - 1]))
  {
    var l := StripLeft(s);
    var r := StripRight(l);
    assert TrimmedTo(s, |s| - |l|, |s| - |l| + |r|);
    assert r == s[|s| - |l|..|s| - |l| + |r|];
    r
  }

  /** The length of `s[..n]` once its trailing slashes are dropped. */
  function StrippedLength(s: string, n: nat): (m: nat)
    requires n <= |s|
    ensures m <= n
    decreases n
  {
    if n == 0 || s[n - 1] != '/' then n else StrippedLength(s, n - 1)
  }

  /** What is cut off is all slashes, and what is kept does not end in one. */
  lemma {:induction false} StrippedLengthSpec(s: string, n: nat)
    requires n <= |s|
    ensures var m := StrippedLength(s, n);
      && (m == 0 || s[m - 1] != '/')
      && forall k :: m <= k < n ==> s[k] == '/'
    decreases n
  {
    if n > 0 && s[n - 1] == '/' {
      StrippedLengthSpec(s, n - 1);
    }
  }

  /** The index of the last slash of `s[..n]`, or -1 when it has none. */
  function SlashBefore(s: string, n: nat): (k: int)
    requires n <= |s|
    ensures -1 <= k < n
    decreases n
  {
    if n == 0 then -1 else if s[n - 1] == '/' then n - 1 else SlashBefore(s, n - 1)
  }

  /** The index found holds a slash and none comes after it. */
  lemma {:induction false} SlashBeforeSpec(s: string, n: nat)
    requires n <= |s|
    ensures var k := SlashBefore(s, n);
      && (k >= 0 ==> s[k] == '/')
      && forall j :: k < j < n ==> s[j] != '/'
    decreases n
  {
    if n > 0 && s[n - 1] != '/' {
      SlashBeforeSpec(s, n - 1);
    }
  }

  /** Python's `s.rstrip('/')`: the longest prefix of `s` that does not end
      in a slash, everything after it being slashes. */
  function RStripSlashes(s: string): (r: string)
    ensures |r| <= |s| && r == s[..|r|]
    ensures r == [] || r[|r| - 1] != '/'
    ensures forall k :: |r| <= k < |s| ==> s[k] == '/'
  {
    StrippedLengthSpec(s, |s|);
    s[..StrippedLength(s, |s|)]
  }

  /** Python's `s.split('/')[-1]`: the suffix of `s` after its last slash,
      or all of `s` when it has none. */
  function LastSegment(s: string): (r: string)
    ensures '/' !in r
    ensures |r| <= |s| && r == s[|s| - |r|..]
    ensures |r| == |s| || s[|s| - |r| - 1] == '/'
  {
    SlashBeforeSpec(s, |s|);
    s[SlashBefore(s, |s|) + 1..]
  }

  /** The stripped length is the only cut with nothing but slashes after it
      and no slash just before it. */
  lemma StrippedLengthUnique(s: string, n: nat, m: nat)
    requires m <= n <= |s| && (m == 0 || s[m - 1] != '/')
    requires forall k :: m <= k < n ==> s[k] == '/'
    ensures StrippedLength(s, n) == m
  {
    StrippedLengthSpec(s, n);
  }

  /** The last slash is the only slash with no slash after it. */
  lemma SlashBeforeUnique(s: string, n: nat, k: int)
    requires -1 <= k < n <= |s| && (k >= 0 ==> s[k] == '/')
    requires forall j :: k < j < n ==> s[j] != '/'
    ensures SlashBefore(s, n) == k
  {
    SlashBeforeSpec(s, n);
  }

  /** A string of `n` slashes. */
  function Slashes(n: nat): (r: string)
    ensures |r| == n && forall k :: 0 <= k < n ==> r[k] == '/'
  {
    if n == 0 then [] else Slashes(n - 1) + ['/']
  }

  /** Trailing slashes never survive `rstrip('/')`. */
  lemma RStripIgnoresTrailingSlashes(s: string, n: nat)
    ensures RStripSlashes(s + Slashes(n)) == RStripSlashes(s)
  {
    var t := s + Slashes(n);
    var m := StrippedLength(s, |s|);
    StrippedLengthSpec(s, |s|);
    assert m > 0 ==> t[m - 1] == s[m - 1];
    forall k | m <= k < |t| ensures t[k] == '/' {
      if k >= |s| { assert t[k] == Slashes(n)[k - |s|]; }
    }
    StrippedLengthUnique(t, |t|, m);
    assert t[..m] == s[..m];
  }

  /** `rstrip('/')` keeps every position up to the last non-slash character. */
  lemma RStripKeepsNonSlash(s: string, i: int)
    requires 0 <= i < |s| && s[i] != '/'
    ensures i < |RStripSlashes(s)|
  {
  }

  /** Prepending text to a string that keeps a non-slash character after
      stripping leaves the stripped part unchanged. */
  lemma RStripPrefix(a: string, b: string, i: int)
    requires 0 <= i < |b| && b[i] != '/'
    ensures RStripSlashes(a + b) == a + RStripSlashes(b)
  {
    var t := a + b;
    var m := StrippedLength(b, |b|);
    StrippedLengthSpec(b, |b|);
    assert i < m;
    assert t[|a| + m - 1] == b[m - 1];
    forall k | |a| + m <= k < |t| ensures t[k] == '/' {
      assert t[k] == b[k - |a|];
    }
    StrippedLengthUnique(t, |t|, |a| + m);
    assert t[..|a| + m] == a + b[..m];
  }

  /** The last segment only looks at the text after the last slash. */
  lemma LastSegmentPrefix(a: string, b: string, i: int)
    requires 0 <= i < |b| && b[i] == '/'
    ensures LastSegment(a + b) == LastSegment(b)
  {
    var t := a + b;
    var k := SlashBefore(b, |b|);
    SlashBeforeSpec(b, |b|);
    assert i <= k;
    assert t[|a| + k] == '/';
    forall j | |a| + k < j < |t| ensures t[j] != '/' {
      assert t[j] == b[j - |a|];
    }
    SlashBeforeUnique(t, |t|, |a| + k);
    assert t[|a| + k + 1..] == b[k + 1..];
  }
}

=== FILE: wrappers.dfy ===
/** Optional values and results, used wherever the scraper keeps `None`
    or raises an exception that ends the run. */
module Wrappers {

  datatype Option<+T> = None | Some(value: T)

  /** Success carries the computed value, Failure the reason the run stopped. */
  datatype Result<+R, +E> = Success(value: R) | Failure(error: E)
}
